=== FILE: README.md ===
# Booking backend: relationship maintenance

A Dafny model of the part of the booking-management backend that keeps
customers, businesses, categories and orders pointing at each other. The
database is an immutable `Store`: four maps from opaque ids to records. A
customer, business or category carries an `orders` set. A business also
carries `categories`, and a category carries `businesses`. Each request
handler is a pure function from a store and a request to a `Response`,
which is a status and the store the handler leaves behind.

The status is one of `Ok` (200), `BadRequest` (400), `NotFound` (404),
`ServerError` (500) or `Crashed`. `Crashed` means a promise was rejected
inside the handler, so no response is sent. The handlers write one
document at a time and never roll back. Every status therefore comes with
the writes made before it: for example, the business edits of an update
whose category lookup then fails.

Modules, in dependency order:

- `Basics`: `Option`, ids, parsed numeric query parameters, statuses.
- `OrderSchema`: the Order document and what its schema enforces.
  - `status` is `ongoing` or `finished` and defaults to `ongoing`.
  - `customer` and `category` are required; `business` is optional.
  - `jobLocation` is required and stored in lower case.
  - `rate` lies in 0..5.
  - `NewOrder` builds the document `addOrder` saves; `PatchOrder` builds
    the one a validated update leaves.
- `Search`: `searchByFilters`.
  - The checks run in order: page size, then page number, then sort
    direction.
  - An empty or default search field means no filter.
  - The result is sorted, then one 1-based page is sliced out of it.
- `Listing`: the list endpoint shared by the three controllers.
  - Query defaults, then `documentCount`, then the page.
  - An empty answer is 404 and an error string is 500.
- `Db`: the store, the back-reference operations and the invariants.
  - The operations are `addToSet` and `pull` on `orders`, one save after
    another.
  - The invariants:
    - `OrdersLinked`: every order is listed by each stored holder it
      points at.
    - `RefsBacked`, the converse: a holder lists only stored orders that
      point back at it.
    - `LinksSymmetric`: category and business links are listed on both
      sides.
    - `EmailsUnique` and `CategoryNamesUnique`.
    - `OrdersValid`: every stored order passes the Order schema.
- `Orders`: `addOrder`, `updateOrder`, `deleteOrderById` and
  `getOrderById`.
  - `deleteOrderById` appears twice: as written and with checked lookups.
  - `updateOrder` is parameterised by `SaveMode`:
    - `AsSaved` is the save behaviour of a document loaded before a later
      write to the same record.
    - `Intended` is the behaviour the handler evidently expects.
- `Categories`: the category controller.
  - Unique-name add, and update.
  - Delete, with its cascade over the listed businesses.
  - Symmetric link and unlink of a business.
- `Customers`: the customer controller.
  - Unique-email add, update and lookup.
  - A delete that removes only the customer.

The database's regular-expression match is an uninterpreted predicate
`matches(field, value, document)`. The sort key is an uninterpreted
integer `rank(sortType, document)`. The configured defaults are a
`Defaults` parameter. The id a new document receives is a parameter of
the add handlers. Lemmas that need a new id to be unused say so as a
hypothesis.

The model follows the code, which behaves as follows:

- Deleting a customer cascades nowhere.
- Deleting a category pulls its id only from the `categories` of the
  businesses it lists. It does not touch the `orders` sets or the orders
  that point at it.
- Updates do not re-check the unique email or name.

## Model

| member | source | states |
|---|---|---|
| OrderSchema.ParseStatus | src/models/orders.js:19-24 | A missing status becomes ongoing. "finished" is the only way to get finished. Validation fails exactly for a string outside the enum. |
| OrderSchema.ToLower | src/models/orders.js:28-33 | The stored location has the input's length. Each upper-case letter A-Z becomes the letter 32 code points above it, i.e. its lower-case form. Every other character is kept, so no upper-case letter remains. |
| OrderSchema.ToLowerIdempotent | src/models/orders.js:31 | Applying the lowercase setter twice is the same as applying it once. |
| OrderSchema.ToLowerFixesLower | src/models/orders.js:31 | A location that is already lower case is stored unchanged. |
| OrderSchema.ParseLocation | src/models/orders.js:28-33 | The location passes exactly when it is present and non-empty. What passes is the lower-cased input, so it is lower case and keeps its length. |
| OrderSchema.NewOrder | src/models/orders.js:4-46 | A new order validates exactly when status, location and rate are valid. The stored document is schema-valid. Its status is the parsed status, ongoing when none is given. Its location is the lower-cased input. It keeps the given customer, category, business, rate and comment. |
| OrderSchema.PatchOrder | src/controllers/orders.js:156-159 | The validated update succeeds exactly when each supplied field passes its validator. The customer never changes. The business becomes the requested one, and a supplied category replaces the old one. A supplied status becomes the parsed status, a supplied location its lower-cased form, and a supplied rate or comment is stored as given. Every other missing field keeps its value. Validity is preserved. |
| Search.Select | src/models/orders.js:68-73 | Unfiltered queries take the whole collection. Filtered ones take exactly the matching documents, each drawn from the collection. |
| Search.FilterKeepsMatches | src/models/orders.js:72 | The filtered query drops no document that matches. |
| Search.FilterCount | src/models/orders.js:72 | The filtered query keeps exactly as many documents as match, counted independently of the filter. |
| Search.Sort | src/models/orders.js:77 | The result is sorted in the requested direction and is a permutation of the input. |
| Search.Page | src/models/orders.js:75-76 | A page holds at most `pageSize` documents, all drawn from the sorted matches. |
| Search.PagesArePrefix | src/models/orders.js:75-76 | Pages 1..k laid end to end are exactly the first min(k·size, n) documents: no gap and no overlap between pages. |
| Search.PagesCoverAll | src/models/orders.js:75-76 | Enough pages to cover every document reproduce the whole sequence. |
| Search.SearchByFilters | src/models/orders.js:55-80 | Page size is checked first, then page number, then sort direction, each with its own message. Documents come back exactly when all three pass. The page has at most `pageSize` documents, each a stored document that matches when filtered, in sorted order. |
| Search.PageIsSorted | src/models/orders.js:75-78 | Any page of a sorted sequence is sorted. |
| Search.SearchPagesArePrefix | src/models/orders.js:55-80 | Requesting pages 1..k of one query gives the same as slicing the sorted matches into pages. |
| Search.RequestedPage | src/models/orders.js:75-79 | For a valid query, asking for page k returns page k of the sorted matches. The page number plays no part in selecting or sorting. |
| Search.SearchPagesCoverMatches | src/models/orders.js:68-79 | Once the pages cover every match, together they return each matching document exactly once, in order. |
| Listing.Resolve | src/controllers/categories.js:12-19 | Each of searchField, pageRequested, pageSize, sortType and sortValue is the supplied value when present and its default when missing. The search value has no default. |
| Listing.CountDocuments | src/controllers/customers.js:20-28 | With no filter the count is the collection's size. With a filter it is the number of documents that match. It never exceeds the collection. |
| Listing.ListDocuments | src/controllers/orders.js:23-43 | An invalid query is 500 with the message the search returns, and a bad page size is reported first. An empty page is 404. A 200 answer carries exactly the page the search returns, which is non-empty and no longer than `pageSize` or `documentCount`. The count is the filtered count. |
| Listing.ListedWithinCount | src/controllers/orders.js:23-43 | For a valid query the answer is 200 exactly when the requested page starts before `documentCount`. That page is the requested slice of the sorted matches. |
| Db.AddOrderRef | src/controllers/orders.js:93-94 | After `addToSet` and save, the holder's orders gain the id. Every other holder and every other field is unchanged. An id already present writes nothing. |
| Db.PullOrderRef | src/controllers/orders.js:126-127 | After `pull` and save, the holder's orders lose the id. Nothing else changes. |
| Db.AttachAll | src/controllers/orders.js:93-100 | Saving an add to each listed holder in turn adds the id to exactly those holders. The orders collection and all other fields are untouched. |
| Db.DetachAll | src/controllers/orders.js:174-184 | Pulling from each listed holder that is found removes the id from exactly those holders. Nothing else changes. |
| Db.AddOrderRefIdempotent | src/controllers/orders.js:97-98 | `addToSet` twice is `addToSet` once. |
| Db.PullUndoesAdd | src/controllers/orders.js:174-184 | The pulls of deleteOrderById, applied right after addOrder's `addToSet` of an id the holder lacked, restore the store. |
| Db.OrdersLinkedAfterWrite | src/controllers/orders.js:87-100 | A write that keeps every other order and every other reference, and links the written order, keeps every stored order linked. |
| Orders.AddOrder | src/controllers/orders.js:60-103 | The handler checks the customer, then the category, then a supplied business. Any one missing is 404 with the store unchanged. Otherwise the id is added to exactly the named holders and nothing else changes. The order is stored exactly when the schema accepts it, and the stored document is the one the schema builds from the body. A rejected document leaves the added references behind. |
| Orders.AddOrderAttaches | src/controllers/orders.js:87-100 | After a successful add, the customer and category list the order. A business lists it exactly when it was requested or already did. Holders that already listed it are untouched. |
| Orders.AddOrderKeepsLinks | src/controllers/orders.js:77-101 | Adding an order keeps every stored order listed by the holders it points at. |
| Orders.MoveOrderRef | src/controllers/orders.js:124-131 | The id is pulled from the previous holder. It is then added to the next one, unless a stale copy of the next holder already listed it. |
| Orders.BusinessStep | src/controllers/orders.js:118-138 | Only business sets change, and only by this id. The id leaves the previous business. It joins the requested one whenever that differs from the current one, and with intended saves always. With no business in the request, it is only pulled. |
| Orders.CategoryStep | src/controllers/orders.js:140-154 | Only category sets change, and only by this id. The id leaves the previous category. It joins the requested one whenever that differs from the current one, and with intended saves always. Without a requested category nothing is written. |
| Orders.UpdateOrder | src/controllers/orders.js:105-165 | A missing order is 404 and any supplied customer is 400, both with no change. A missing business is 404 with no change. A missing category is 404 that keeps the business edits. Success happens exactly when the lookups pass and the patch validates. The stored order is then the validated patch with the same customer, and every other order is unchanged. |
| Orders.UpdateWrites | src/controllers/orders.js:118-164 | Past the order, customer and business checks, the category lookup fails exactly when the requested category is missing, and the order is rewritten exactly when the patch validates. Only back-reference sets change, besides that one order. |
| Orders.UpdateOrderRefsStore | src/controllers/orders.js:118-159 | The back-references an update leaves are those of the last step it reached: none, the business step, or the category step. |
| Orders.UpdateOrderMovesOnlyItsId | src/controllers/orders.js:114-154 | An update moves only its own id. It never changes a customer's set. When the category lookup fails, no category set has changed. |
| Orders.UpdateOrderMovesBusiness | src/controllers/orders.js:118-138 | Past the business lookup, the id leaves a previous business that differs from the requested one. It joins the requested business whenever that differs from the current one, and with intended saves always. No other business changes. |
| Orders.UpdateOrderMovesCategory | src/controllers/orders.js:140-154 | Past the category lookup, the id leaves a previous category that differs from the requested one. It joins the requested category whenever that differs from the current one, and with intended saves always. No other category changes. |
| Orders.RewrittenOrderLinked | src/controllers/orders.js:118-159 | An order rewritten by an update is listed by each holder it now points at, given where the update placed its id. |
| Orders.UpdateOrderLinksItself | src/controllers/orders.js:118-159 | After a successful update with intended saves, the order is listed by each stored holder it points at. |
| Orders.UpdateOrderKeepsLinks | src/controllers/orders.js:105-165 | A successful update with intended saves keeps every stored order linked. |
| Orders.DeleteOrderById | src/controllers/orders.js:167-187 | A missing order is 404 with no change. Otherwise the order is removed first, and the answer is 200 exactly when its customer, business and category all exist. An order without a business always crashes. A crash keeps the pulls saved before it. A missing customer leaves every set as it was. A found customer and business both lose the id even when the category lookup then fails. The category keeps the id whenever an earlier lookup failed. Only the order's own holders change, and only by losing the id. |
| Orders.DeleteOrderByIdChecked | src/controllers/orders.js:167-187 | Delete with every lookup checked: 404 exactly when the order is missing. Otherwise the order is removed and exactly its holders lose the id. |
| Orders.GetOrderById | src/controllers/orders.js:47-58 | The answer is 404 exactly when the id is not stored; otherwise it is the stored order. |
| Orders.HandlersKeepOrdersValid | src/controllers/orders.js:101 | Add, update and both deletes store only orders the schema accepts. |
| Orders.DeleteCheckedKeepsLinks | src/controllers/orders.js:169-184 | The checked delete keeps every remaining order linked. |
| Orders.AddOrderKeepsRefsBacked | src/controllers/orders.js:87-101 | A successful add with an unused id lists the order only in holders it points at, so every listed order still points back. |
| Orders.UpdateOrderKeepsRefsBacked | src/controllers/orders.js:118-159 | With intended saves, a successful update takes the id out of every holder the order no longer points at, so every listed order still points back. |
| Orders.DeleteCheckedKeepsRefsBacked | src/controllers/orders.js:169-184 | The checked delete removes the id from every holder that lists it, so every listed order still points back. |
| Orders.AddThenDeleteRestoresRefs | src/controllers/orders.js:93-100 | Adding an order with an unused id and deleting it with checked lookups gives back every back-reference set and the orders collection. |
| Orders.UpdatePartialWriteUnlinks | src/controllers/orders.js:118-143 | An update that fails the category lookup keeps its business pull. The unchanged order then points at a business that no longer lists it. |
| Orders.DeleteWithoutBusinessCrashes | src/controllers/orders.js:178-180 | Deleting an order without a business crashes after the order is gone. Its category still lists the deleted id, so a holder lists an order that no longer exists. |
| Orders.AddWithoutBusinessThenDeleteCrashes | src/controllers/orders.js:87-100 | Such orders come from a successful add without a business. The checked delete handles them. |
| Orders.SameBusinessUpdateDropsOrder | src/controllers/orders.js:118-131 | As saved, re-sending an order's current business removes the order from that business's set. With intended saves it stays listed. |
| Orders.AsSavedAgreesWhenMoved | src/controllers/orders.js:118-154 | As written, an update that re-sends neither the order's current business nor its current category writes exactly what the intended saves write. Sending no business at all counts as not re-sending it. The stale copy matters only when the order is re-sent a holder it already has. |
| Orders.AsSavedKeepsLinksWhenMoved | src/controllers/orders.js:105-165 | Such an update, as written, keeps every stored order listed by the holders it points at. |
| Orders.AsSavedKeepsRefsBackedWhenMoved | src/controllers/orders.js:105-165 | Such an update, as written, keeps every holder listing only orders that point back at it. |
| Categories.AddCategory | src/controllers/categories.js:56-73 | A taken name is 400 with no change. Otherwise exactly one empty category with that name is inserted and nothing else changes. |
| Categories.AddCategoryKeepsNamesUnique | src/controllers/categories.js:58-72 | An add with an unused id keeps category names unique and grows the collection by one. |
| Categories.UpdateCategory | src/controllers/categories.js:75-84 | A missing id is 404 with no change. Otherwise the supplied name and description replace the old ones, the link sets stay, and no other document changes. |
| Categories.UpdateCategoryCanDuplicateName | src/controllers/categories.js:79 | As written, an update can give two categories the same name. |
| Categories.UpdateCategoryChecked | src/controllers/categories.js:75-84 | The update with the add rule applied: a new name held by another category is 400 with no change. |
| Categories.UpdateCategoryCheckedKeepsNamesUnique | src/controllers/categories.js:58-61 | The checked update keeps names unique. |
| Categories.DeleteCategoryById | src/controllers/categories.js:86-98 | A missing id is 404 with no change. Otherwise the category is removed, and its id is pulled from the categories of exactly the businesses it lists. Everything else is untouched. |
| Categories.DeleteCategoryKeepsOrderRefs | src/controllers/categories.js:93-96 | No surviving holder's orders set changes. |
| Categories.DeleteCategoryKeepsLinks | src/controllers/categories.js:88-96 | With symmetric links, the cascade leaves no business pointing at the deleted category, and the links stay symmetric. If every category a business listed was stored, that still holds. |
| Categories.DeleteCategoryKeepsOrdersLinked | src/controllers/categories.js:86-97 | Every stored order stays listed by the holders that remain. |
| Categories.DeleteCategoryKeepsRefsBacked | src/controllers/categories.js:86-97 | After a category delete, every remaining holder lists only orders that point back at it. |
| Categories.GetCategoryById | src/controllers/categories.js:44-54 | The answer is 404 exactly when the id is not stored; otherwise it is the stored category. |
| Categories.AddBusinessToCategory | src/controllers/categories.js:100-113 | A missing category or business is 404 with no change. Otherwise each side lists the other, and only those two sets change. |
| Categories.DeleteBusinessFromCategory | src/controllers/categories.js:115-127 | A missing category or business is 404 with no change. Otherwise neither side lists the other, and only those two sets change. |
| Categories.LinkIdempotent | src/controllers/categories.js:108-111 | Linking twice is linking once. |
| Categories.UnlinkUndoesLink | src/controllers/categories.js:122-125 | Link then unlink leaves the pair unlinked. It restores the store when the pair was unlinked before. |
| Categories.LinkKeepsSymmetric | src/controllers/categories.js:108-111 | Linking keeps the links symmetric. |
| Categories.UnlinkKeepsSymmetric | src/controllers/categories.js:122-125 | Unlinking keeps the links symmetric. |
| Customers.AddCustomer | src/controllers/customers.js:51-69 | A taken email is 400 with no change. Otherwise exactly one customer is inserted, with the given name, email and phone and no orders, and nothing else changes. |
| Customers.AddCustomerKeepsEmailsUnique | src/controllers/customers.js:53-67 | An add with an unused id keeps emails unique and grows the collection by one. |
| Customers.AddCustomersKeepEmailsUnique | src/controllers/customers.js:53-67 | Any run of adds with fresh ids keeps emails unique. |
| Customers.GetCustomerById | src/controllers/customers.js:42-49 | The answer is 404 exactly when the id is not stored; otherwise it is the stored customer. |
| Customers.UpdateCustomer | src/controllers/customers.js:71-82 | A missing id is 404 with no change. Otherwise the supplied fields replace the old ones, the orders set stays, and no other document changes. |
| Customers.UpdateCustomerCanDuplicateEmail | src/controllers/customers.js:74-76 | As written, an update can give two customers the same email. |
| Customers.UpdateCustomerChecked | src/controllers/customers.js:71-82 | The update with the add rule applied: a new email held by another customer is 400 with no change. |
| Customers.UpdateCustomerCheckedKeepsEmailsUnique | src/controllers/customers.js:53-56 | The checked update keeps emails unique. |
| Customers.DeleteCustomerById | src/controllers/customers.js:84-92 | A missing id is 404 with no change. Otherwise only that customer is removed; no order, business or category changes. |
| Customers.DeleteCustomerKeepsInvariants | src/controllers/customers.js:86-91 | Deleting a customer keeps unique emails, linked orders, orders backed by their holders and symmetric links. The customer's orders survive and point at a missing customer. |

## Left out

- The Express request/response plumbing and the JSON bodies. A response is a status plus the resulting store. Only the get-by-id and list handlers return their documents.
- The Mongoose driver's behaviour. Object ids are opaque naturals, and a new document's id is a parameter. A lemma that needs a new id to be unused takes that as a hypothesis. An add with a stored id overwrites in the model, where an insert would fail on the duplicate key.
- `populate` on the get-by-id handlers, timestamps, and `jobEstimatedTime` (a `Date`).
- The `if (!order)`, `if (!category)` and `if (!customer)` checks after `new Model(...)`. A constructor always returns a document, so these 500 branches cannot be reached.
- The `if (!updatedOrder)` 404 of `updateOrder`. In a sequential model the order found at the start is still there.
- Regular-expression matching, which is the uninterpreted `matches`. The sort order is the uninterpreted integer key `rank`. Search.Sort states only sortedness and permutation, so any order of equal keys meets it. Within the model, though, the order of equal keys is one fixed function of the collection, the same for every request.
- Search.SearchPagesArePrefix: assumes every page request orders documents with equal keys the same way. The database does not promise this across separate skip/limit queries, so with a non-unique sort key, pages of the real handler can overlap or skip a document. The lemma describes the real handler only when `rank` is injective on the matches, for example a sort by `_id`.
- Search.SearchPagesCoverMatches: rests on the same assumption as Search.SearchPagesArePrefix.
- JavaScript coercion of query strings (`isNaN`, `parseInt`). A numeric parameter is a `Num`: an integer or not-a-number.
- The Customer, Business and Category schemas and their `searchByFilters` statics are not part of this model.
  - The list handlers of categories and customers use the same search as orders.
  - Name, email and description are plain strings in the add requests; a missing one is not modelled.
  - Any unique index those schemas may declare is not modelled either.
- OrderSchema.PatchOrder: what the driver does with the fields missing from the update body is abstracted. A missing business removes the order's business, as the handler's own bookkeeping assumes. Every other missing field keeps its stored value.
- OrderSchema.ToLower: maps only the ASCII letters A-Z.
- OrderSchema.NewOrder: `rate` is an integer. A fractional Number rate such as 2.5 is not modelled, nor what the enum and range validators do with it. The same holds for OrderSchema.PatchOrder.
- The collection a list request reads is a sequence passed in, and its order is the order the database returns documents in. It is not drawn from the store's maps.
- RefsBacked: preserved by a successful add with an unused id, a successful update with intended saves, the checked order delete and the category and customer deletes. The crash paths of the order handlers as written can break it, as Orders.DeleteWithoutBusinessCrashes shows for the delete.
- Concurrency. Handlers run one at a time. Non-atomicity appears only as the partial writes a failing handler leaves.
- Businesses are not created, updated or deleted here; that controller is not part of this model.
- Orders.UpdateOrder: the same stale-copy problem as on the business side can occur when an order is re-sent its current category. The model expresses it through the `AsSaved` mode, but only the business side is proved as a lemma (Orders.SameBusinessUpdateDropsOrder).

## Findings

| source | as written | input that shows it | evidently intended | confidence | as-written member | corrected member |
|---|---|---|---|---|---|---|
| src/controllers/orders.js:178-180 | The business of a deleted order is looked up by its (possibly undefined) id and dereferenced without a check. | Delete an order created without a business. The order and the customer's reference are already gone when the handler crashes, and the category keeps listing the deleted id. | Pull the id from each holder that is found, and answer 200. | high, not executed | Orders.DeleteWithoutBusinessCrashes | Orders.DeleteOrderByIdChecked |
| src/controllers/orders.js:118-131 | The requested business is loaded before the previous one is pulled and saved. `addToSet` then runs on the stale copy. | Update an order with its current business: the stale copy already lists the id, so nothing is added back after the pull. An update that re-sends neither its current business nor its current category is unaffected (Orders.AsSavedAgreesWhenMoved). | The order stays listed by its business. | medium, not executed (relies on how a loaded document records `addToSet`) | Orders.SameBusinessUpdateDropsOrder | Orders.UpdateOrderKeepsLinks |
| src/controllers/customers.js:74-76 | `updateCustomer` writes a new email without the uniqueness check that `addCustomer` makes. | Two customers with emails a@x and b@x; update the first to b@x. | A new email held by another customer is rejected with 400. | low, not executed (a unique index in the Customer schema, which is not part of this model, would reject it instead) | Customers.UpdateCustomerCanDuplicateEmail | Customers.UpdateCustomerCheckedKeepsEmailsUnique |
| src/controllers/categories.js:79 | `updateCategory` writes a new name without the uniqueness check that `addCategory` makes. | Two categories named a and b; update the first to b. | A new name held by another category is rejected with 400. | low, not executed (a unique index in the Category schema, which is not part of this model, would reject it instead) | Categories.UpdateCategoryCanDuplicateName | Categories.UpdateCategoryCheckedKeepsNamesUnique |

=== FILE: basics.dfy ===
/** Vocabulary shared by every part of the booking backend model. */
module Basics {

  /** The conventional optional value: `None` stands for a field that a
      request body or a stored document leaves undefined. */
  datatype Option<+T> = None | Some(value: T) {

    /** The carried value, or `default` when the field is undefined. */
    function GetOr(default: T): T {
      match this
      case Some(v) => v
      case None => default
    }
  }

  /** A database object id. Ids are opaque: the model only compares them. */
  type Id = nat

  /** A numeric query parameter after JavaScript's `isNaN` test: either a
      number (already truncated the way `parseInt` would) or not a number. */
  datatype Num = Num(n: int) | NaN

  /** How a request handler ends. The first four are the HTTP statuses the
      handlers send (200, 400, 404, 500); `Crashed` is a promise rejected
      inside a handler, which sends no response at all and keeps whatever
      was already written. */
  datatype Status = Ok | BadRequest | NotFound | ServerError | Crashed
}

=== FILE: categories.dfy ===
/** The category controller: unique-name creation, partial update,
    deletion with its cascade over the linked businesses, and the
    symmetric link and unlink of a business. */
module Categories {
  import opened Basics
  import opened Db

  /** The body of an update-category request; a missing field is left as
      it is. */
  datatype CategoryBody = CategoryBody(name: Option<string>, description: Option<string>)

  /** `Category.findOne({ name })` finds a document. */
  predicate NameTaken(s: Store, name: string) {
    exists c :: c in s.categories && s.categories[c].name == name
  }

  /** `addCategory`. `id` is the object id the new document receives. */
  function AddCategory(s: Store, id: Id, name: string, description: string): (r: Response)
    ensures r.status == Ok || r.status == BadRequest
    ensures r.status == BadRequest <==> NameTaken(s, name)
    ensures r.status == BadRequest ==> r.store == s
    ensures r.status == Ok ==>
      && r.store.categories.Keys == s.categories.Keys + {id}
      && r.store.categories[id] == Category(name, description, {}, {})
      && (forall c :: c in s.categories && c != id ==> r.store.categories[c] == s.categories[c])
      && r.store.customers == s.customers
      && r.store.businesses == s.businesses
      && r.store.orders == s.orders
  {
    if NameTaken(s, name) then Response(BadRequest, s)
    else Response(Ok, s.(categories := s.categories[id := Category(name, description, {}, {})]))
  }

  /** An add with a fresh id inserts exactly one category and keeps the
      names unique. */
  lemma AddCategoryKeepsNamesUnique(s: Store, id: Id, name: string, description: string)
    requires CategoryNamesUnique(s)
    requires id !in s.categories
    ensures var r := AddCategory(s, id, name, description);
      && CategoryNamesUnique(r.store)
      && (r.status == Ok ==> |r.store.categories| == |s.categories| + 1)
  {
    var r := AddCategory(s, id, name, description);
    if r.status == Ok {
      var t := r.store;
      forall a, b | a in t.categories && b in t.categories && a != b
        ensures t.categories[a].name != t.categories[b].name
      {
        if a == id {
          assert b in s.categories;
        } else if b == id {
          assert a in s.categories;
        }
      }
      assert t.categories.Keys == s.categories.Keys + {id};
    }
  }

  /** `updateCategory`: a validated `findByIdAndUpdate`; the name is not
      checked against the other categories. */
  function UpdateCategory(s: Store, id: Id, body: CategoryBody): (r: Response)
    ensures r.status == Ok || r.status == NotFound
    ensures r.status == NotFound <==> id !in s.categories
    ensures r.status == NotFound ==> r.store == s
    ensures r.status == Ok ==>
      && r.store.categories.Keys == s.categories.Keys
      && r.store.categories[id].name == body.name.GetOr(s.categories[id].name)
      && r.store.categories[id].description == body.description.GetOr(s.categories[id].description)
      && r.store.categories[id].businesses == s.categories[id].businesses
      && r.store.categories[id].orders == s.categories[id].orders
      && (forall c :: c in s.categories && c != id ==> r.store.categories[c] == s.categories[c])
      && r.store.customers == s.customers
      && r.store.businesses == s.businesses
      && r.store.orders == s.orders
  {
    if id !in s.categories then Response(NotFound, s)
    else
      var g := s.categories[id];
      var name := if body.name.Some? then body.name.value else g.name;
      var description := if body.description.Some? then body.description.value else g.description;
      Response(Ok, s.(categories := s.categories[id := g.(name := name, description := description)]))
  }

  /** `updateCategory` with the uniqueness rule of `addCategory` applied to
      a new name: a name held by another category is rejected with 400. */
  function UpdateCategoryChecked(s: Store, id: Id, body: CategoryBody): (r: Response)
    ensures r.status == Ok || r.status == NotFound || r.status == BadRequest
    ensures r.status == NotFound <==> id !in s.categories
    ensures r.status == BadRequest <==>
      id in s.categories && body.name.Some? && body.name.value != s.categories[id].name && NameTaken(s, body.name.value)
    ensures r.status != Ok ==> r.store == s
    ensures r.status == Ok ==> r.store == UpdateCategory(s, id, body).store
  {
    if id !in s.categories then Response(NotFound, s)
    else if body.name.Some? && body.name.value != s.categories[id].name && NameTaken(s, body.name.value) then
      Response(BadRequest, s)
    else UpdateCategory(s, id, body)
  }

  /** The checked update keeps category names unique. */
  lemma UpdateCategoryCheckedKeepsNamesUnique(s: Store, id: Id, body: CategoryBody)
    requires CategoryNamesUnique(s)
    ensures CategoryNamesUnique(UpdateCategoryChecked(s, id, body).store)
  {
    var r := UpdateCategoryChecked(s, id, body);
    if r.status == Ok {
      var t := r.store;
      forall a, b | a in t.categories && b in t.categories && a != b
        ensures t.categories[a].name != t.categories[b].name
      {
        if a == id && body.name.Some? && body.name.value != s.categories[id].name {
          assert !(s.categories[b].name == body.name.value);
        } else if b == id && body.name.Some? && body.name.value != s.categories[id].name {
          assert !(s.categories[a].name == body.name.value);
        }
      }
    }
  }

  /** As written, an update can give a category the name of another one. */
  lemma UpdateCategoryCanDuplicateName()
    ensures exists s: Store, id: Id, body: CategoryBody ::
      CategoryNamesUnique(s) && UpdateCategory(s, id, body).status == Ok &&
      !CategoryNamesUnique(UpdateCategory(s, id, body).store)
  {
    var s := Store(map[], map[], map[1 := Category("a", "", {}, {}), 2 := Category("b", "", {}, {})], map[]);
    var body := CategoryBody(Some("b"), None);
    var t := UpdateCategory(s, 1, body).store;
    assert t.categories[1].name == t.categories[2].name;
  }

  /** `deleteCategoryById`: the category is removed and its id pulled from
      the `categories` of the businesses it lists; other businesses, the
      `orders` sets and every order are left alone. */
  function DeleteCategoryById(s: Store, id: Id): (r: Response)
    ensures r.status == Ok || r.status == NotFound
    ensures r.status == NotFound <==> id !in s.categories
    ensures r.status == NotFound ==> r.store == s
    ensures r.status == Ok ==>
      && r.store.categories == s.categories - {id}
      && r.store.customers == s.customers
      && r.store.orders == s.orders
      && r.store.businesses.Keys == s.businesses.Keys
      && (forall b :: b in s.businesses ==>
            && r.store.businesses[b].categories ==
                 (if b in s.categories[id].businesses then s.businesses[b].categories - {id}
                  else s.businesses[b].categories)
            && r.store.businesses[b] == s.businesses[b].(categories := r.store.businesses[b].categories))
  {
    if id !in s.categories then Response(NotFound, s)
    else
      var listed := s.categories[id].businesses;
      var businesses := map b | b in s.businesses ::
        if b in listed then s.businesses[b].(categories := s.businesses[b].categories - {id})
        else s.businesses[b];
      Response(Ok, s.(categories := s.categories - {id}, businesses := businesses))
  }

  /** The `orders` set of every holder that survives a category delete is
      unchanged. */
  lemma DeleteCategoryKeepsOrderRefs(s: Store, id: Id)
    ensures var t := DeleteCategoryById(s, id).store;
      forall h :: h != OfCategory(id) ==> OrderRefs(t, h) == OrderRefs(s, h)
  {
  }

  /** Every category a business lists is stored. */
  ghost predicate CategoryRefsResolve(s: Store) {
    forall b, c :: b in s.businesses && c in s.businesses[b].categories ==> c in s.categories
  }

  /** When the links are symmetric, the cascade reaches every business
      that lists the deleted category, so no business is left pointing at
      it and the links stay symmetric; category references that all
      resolved still do. */
  lemma DeleteCategoryKeepsLinks(s: Store, id: Id)
    requires LinksSymmetric(s)
    ensures var t := DeleteCategoryById(s, id).store;
      id in s.categories ==> forall b :: b in t.businesses ==> id !in t.businesses[b].categories
    ensures LinksSymmetric(DeleteCategoryById(s, id).store)
    ensures CategoryRefsResolve(s) ==> CategoryRefsResolve(DeleteCategoryById(s, id).store)
  {
    var r := DeleteCategoryById(s, id);
    if r.status == Ok {
      var t := r.store;
      if CategoryRefsResolve(s) {
        forall b, c | b in t.businesses && c in t.businesses[b].categories
          ensures c in t.categories
        {
          assert c in s.businesses[b].categories;
        }
      }
      forall c, b | c in t.categories && b in t.businesses
        ensures b in t.categories[c].businesses <==> c in t.businesses[b].categories
      {
        assert c in s.categories && c != id;
      }
    }
  }

  /** Deleting a category leaves stored orders listed by the holders that
      remain. */
  lemma DeleteCategoryKeepsOrdersLinked(s: Store, id: Id)
    requires OrdersLinked(s)
    ensures OrdersLinked(DeleteCategoryById(s, id).store)
  {
    var t := DeleteCategoryById(s, id).store;
    forall o, h | o in t.orders && h in HoldersOf(t.orders[o]) && Exists(t, h)
      ensures o in OrderRefs(t, h)
    {
      assert Exists(s, h);
      DeleteCategoryKeepsOrderRefs(s, id);
    }
  }

  /** Deleting a category leaves every remaining holder listing only
      orders that point back at it. */
  lemma DeleteCategoryKeepsRefsBacked(s: Store, id: Id)
    requires RefsBacked(s)
    ensures RefsBacked(DeleteCategoryById(s, id).store)
  {
    var t := DeleteCategoryById(s, id).store;
    forall h, o | Exists(t, h) && o in OrderRefs(t, h)
      ensures o in t.orders && h in HoldersOf(t.orders[o])
    {
      assert Exists(s, h);
      DeleteCategoryKeepsOrderRefs(s, id);
    }
  }

  /** `getCategoryById`, without the population of referenced documents. */
  function GetCategoryById(s: Store, id: Id): (r: Lookup<Category>)
    ensures r.Status() == NotFound <==> id !in s.categories
    ensures r.Found? ==> r.doc == s.categories[id]
  {
    if id in s.categories then Found(s.categories[id]) else Missing
  }

  // ---------------------------------------------------------------------
  // Linking a business to a category
  // ---------------------------------------------------------------------

  /** Both sides of the pairing are stored and each lists the other. */
  predicate Linked(s: Store, c: Id, b: Id) {
    && c in s.categories && b in s.businesses
    && b in s.categories[c].businesses && c in s.businesses[b].categories
  }

  /** Neither side of the pairing lists the other. */
  predicate Unlinked(s: Store, c: Id, b: Id)
    requires c in s.categories && b in s.businesses
  {
    b !in s.categories[c].businesses && c !in s.businesses[b].categories
  }

  /** Writes `category.businesses` of `c` and `business.categories` of `b`. */
  function SetLinks(s: Store, c: Id, b: Id, businesses: set<Id>, categories: set<Id>): (t: Store)
    requires c in s.categories && b in s.businesses
    ensures OnlyLinksDiffer(s, t)
    ensures t.categories[c].businesses == businesses
    ensures t.businesses[b].categories == categories
    ensures forall k :: k in s.categories && k != c ==> t.categories[k] == s.categories[k]
    ensures forall k :: k in s.businesses && k != b ==> t.businesses[k] == s.businesses[k]
  {
    s.(categories := s.categories[c := s.categories[c].(businesses := businesses)],
       businesses := s.businesses[b := s.businesses[b].(categories := categories)])
  }

  /** `addBusinesstoCategory`: both lookups happen before either save, and
      each side adds the other to its set. */
  function AddBusinessToCategory(s: Store, c: Id, b: Id): (r: Response)
    ensures r.status == Ok || r.status == NotFound
    ensures r.status == NotFound <==> c !in s.categories || b !in s.businesses
    ensures r.status == NotFound ==> r.store == s
    ensures r.status == Ok ==>
      && Linked(r.store, c, b)
      && OnlyLinksDiffer(s, r.store)
      && r.store.categories[c].businesses == s.categories[c].businesses + {b}
      && r.store.businesses[b].categories == s.businesses[b].categories + {c}
      && (forall k :: k in s.categories && k != c ==> r.store.categories[k] == s.categories[k])
      && (forall k :: k in s.businesses && k != b ==> r.store.businesses[k] == s.businesses[k])
  {
    if c !in s.categories || b !in s.businesses then Response(NotFound, s)
    else Response(Ok, SetLinks(s, c, b, s.categories[c].businesses + {b}, s.businesses[b].categories + {c}))
  }

  /** `deleteBusinessFromCategory`: both lookups happen before either save,
      and each side pulls the other from its set. */
  function DeleteBusinessFromCategory(s: Store, c: Id, b: Id): (r: Response)
    ensures r.status == Ok || r.status == NotFound
    ensures r.status == NotFound <==> c !in s.categories || b !in s.businesses
    ensures r.status == NotFound ==> r.store == s
    ensures r.status == Ok ==>
      && c in r.store.categories && b in r.store.businesses
      && Unlinked(r.store, c, b)
      && OnlyLinksDiffer(s, r.store)
      && r.store.categories[c].businesses == s.categories[c].businesses - {b}
      && r.store.businesses[b].categories == s.businesses[b].categories - {c}
      && (forall k :: k in s.categories && k != c ==> r.store.categories[k] == s.categories[k])
      && (forall k :: k in s.businesses && k != b ==> r.store.businesses[k] == s.businesses[k])
  {
    if c !in s.categories || b !in s.businesses then Response(NotFound, s)
    else Response(Ok, SetLinks(s, c, b, s.categories[c].businesses - {b}, s.businesses[b].categories - {c}))
  }

  /** Linking twice is linking once. */
  lemma LinkIdempotent(s: Store, c: Id, b: Id)
    ensures var t := AddBusinessToCategory(s, c, b).store;
      AddBusinessToCategory(t, c, b) == AddBusinessToCategory(s, c, b)
  {
    var r := AddBusinessToCategory(s, c, b);
    if r.status == Ok {
      var t := r.store;
      assert t.categories[c].businesses + {b} == t.categories[c].businesses;
      assert t.businesses[b].categories + {c} == t.businesses[b].categories;
      var u := AddBusinessToCategory(t, c, b).store;
      assert u.categories == t.categories;
      assert u.businesses == t.businesses;
    }
  }

  /** Unlinking right after linking leaves neither side pointing at the
      other, and gives back the original store when they were unlinked. */
  lemma UnlinkUndoesLink(s: Store, c: Id, b: Id)
    requires c in s.categories && b in s.businesses
    ensures var u := DeleteBusinessFromCategory(AddBusinessToCategory(s, c, b).store, c, b).store;
      && c in u.categories && b in u.businesses
      && Unlinked(u, c, b)
      && (Unlinked(s, c, b) ==> u == s)
  {
    var t := AddBusinessToCategory(s, c, b).store;
    var u := DeleteBusinessFromCategory(t, c, b).store;
    if Unlinked(s, c, b) {
      assert u.categories[c] == s.categories[c];
      assert u.businesses[b] == s.businesses[b];
      assert u.categories == s.categories;
      assert u.businesses == s.businesses;
    }
  }

  /** Linking writes both sides, so it keeps the links symmetric. */
  lemma LinkKeepsSymmetric(s: Store, c: Id, b: Id)
    requires LinksSymmetric(s)
    ensures LinksSymmetric(AddBusinessToCategory(s, c, b).store)
  {
    var t := AddBusinessToCategory(s, c, b).store;
    forall x, y | x in t.categories && y in t.businesses
      ensures y in t.categories[x].businesses <==> x in t.businesses[y].categories
    {
      assert x in s.categories && y in s.businesses;
    }
  }

  /** Unlinking writes both sides, so it keeps the links symmetric. */
  lemma UnlinkKeepsSymmetric(s: Store, c: Id, b: Id)
    requires LinksSymmetric(s)
    ensures LinksSymmetric(DeleteBusinessFromCategory(s, c, b).store)
  {
    var u := DeleteBusinessFromCategory(s, c, b).store;
    forall x, y | x in u.categories && y in u.businesses
      ensures y in u.categories[x].businesses <==> x in u.businesses[y].categories
    {
      assert x in s.categories && y in s.businesses;
    }
  }
}

=== FILE: customers.dfy ===
/** The customer controller: creation under a unique email, partial
    update, lookup, and a delete that removes the customer document and
    nothing else. */
module Customers {
  import opened Basics
  import opened Db

  /** The body of an add-customer request. */
  datatype NewCustomer = NewCustomer(name: string, email: string, phone: string)

  /** The body of an update-customer request; a missing field is left as
      it is. */
  datatype CustomerBody = CustomerBody(name: Option<string>, email: Option<string>, phone: Option<string>)

  /** `Customer.findOne({ email })` finds a document. */
  predicate EmailTaken(s: Store, email: string) {
    exists c :: c in s.customers && s.customers[c].email == email
  }

  /** `addCustomer`. `id` is the object id the new document receives. */
  function AddCustomer(s: Store, id: Id, body: NewCustomer): (r: Response)
    ensures r.status == Ok || r.status == BadRequest
    ensures r.status == BadRequest <==> EmailTaken(s, body.email)
    ensures r.status == BadRequest ==> r.store == s
    ensures r.status == Ok ==>
      && r.store.customers.Keys == s.customers.Keys + {id}
      && r.store.customers[id] == Customer(body.name, body.email, body.phone, {})
      && (forall c :: c in s.customers && c != id ==> r.store.customers[c] == s.customers[c])
      && r.store.businesses == s.businesses
      && r.store.categories == s.categories
      && r.store.orders == s.orders
  {
    if EmailTaken(s, body.email) then Response(BadRequest, s)
    else Response(Ok, s.(customers := s.customers[id := Customer(body.name, body.email, body.phone, {})]))
  }

  /** An add with a fresh id inserts exactly one customer and keeps the
      emails unique. */
  lemma AddCustomerKeepsEmailsUnique(s: Store, id: Id, body: NewCustomer)
    requires EmailsUnique(s)
    requires id !in s.customers
    ensures var r := AddCustomer(s, id, body);
      && EmailsUnique(r.store)
      && (r.status == Ok ==> |r.store.customers| == |s.customers| + 1)
  {
    var r := AddCustomer(s, id, body);
    if r.status == Ok {
      var t := r.store;
      forall a, b | a in t.customers && b in t.customers && a != b
        ensures t.customers[a].email != t.customers[b].email
      {
        if a == id {
          assert b in s.customers;
        } else if b == id {
          assert a in s.customers;
        }
      }
      assert t.customers.Keys == s.customers.Keys + {id};
    }
  }

  /** A run of add requests, each with the id it receives, handled one
      after another. */
  function AddCustomers(s: Store, requests: seq<(Id, NewCustomer)>): (t: Store)
    ensures t.businesses == s.businesses && t.categories == s.categories && t.orders == s.orders
    ensures s.customers.Keys <= t.customers.Keys
    ensures forall c :: c in t.customers ==> c in s.customers || exists i :: 0 <= i < |requests| && requests[i].0 == c
    decreases |requests|
  {
    if |requests| == 0 then s
    else
      var t := AddCustomers(AddCustomer(s, requests[0].0, requests[0].1).store, requests[1..]);
      assert forall i :: 0 <= i < |requests[1..]| ==> requests[1..][i] == requests[i + 1];
      t
  }

  /** The ids of a run of requests are fresh: not stored yet and pairwise
      distinct. */
  predicate FreshIds(s: Store, requests: seq<(Id, NewCustomer)>) {
    && (forall i :: 0 <= i < |requests| ==> requests[i].0 !in s.customers)
    && (forall i, j :: 0 <= i < j < |requests| ==> requests[i].0 != requests[j].0)
  }

  /** After any run of adds with fresh ids, no two customers share an
      email. */
  lemma {:induction false} AddCustomersKeepEmailsUnique(s: Store, requests: seq<(Id, NewCustomer)>)
    requires EmailsUnique(s)
    requires FreshIds(s, requests)
    ensures EmailsUnique(AddCustomers(s, requests))
    decreases |requests|
  {
    if |requests| > 0 {
      var s1 := AddCustomer(s, requests[0].0, requests[0].1).store;
      AddCustomerKeepsEmailsUnique(s, requests[0].0, requests[0].1);
      var rest := requests[1..];
      forall i | 0 <= i < |rest| ensures rest[i].0 !in s1.customers {
        assert rest[i] == requests[i + 1];
      }
      forall i, j | 0 <= i < j < |rest| ensures rest[i].0 != rest[j].0 {
        assert rest[i] == requests[i + 1] && rest[j] == requests[j + 1];
      }
      AddCustomersKeepEmailsUnique(s1, rest);
    }
  }

  /** `getCustomerById`. */
  function GetCustomerById(s: Store, id: Id): (r: Lookup<Customer>)
    ensures r.Status() == NotFound <==> id !in s.customers
    ensures r.Found? ==> r.doc == s.customers[id]
  {
    if id in s.customers then Found(s.customers[id]) else Missing
  }

  /** `updateCustomer`: a validated `findByIdAndUpdate`; the email is not
      checked against the other customers. */
  function UpdateCustomer(s: Store, id: Id, body: CustomerBody): (r: Response)
    ensures r.status == Ok || r.status == NotFound
    ensures r.status == NotFound <==> id !in s.customers
    ensures r.status == NotFound ==> r.store == s
    ensures r.status == Ok ==>
      && r.store.customers.Keys == s.customers.Keys
      && r.store.customers[id].name == body.name.GetOr(s.customers[id].name)
      && r.store.customers[id].email == body.email.GetOr(s.customers[id].email)
      && r.store.customers[id].phone == body.phone.GetOr(s.customers[id].phone)
      && r.store.customers[id].orders == s.customers[id].orders
      && (forall c :: c in s.customers && c != id ==> r.store.customers[c] == s.customers[c])
      && r.store.businesses == s.businesses
      && r.store.categories == s.categories
      && r.store.orders == s.orders
  {
    if id !in s.customers then Response(NotFound, s)
    else
      var c := s.customers[id];
      var name := if body.name.Some? then body.name.value else c.name;
      var email := if body.email.Some? then body.email.value else c.email;
      var phone := if body.phone.Some? then body.phone.value else c.phone;
      Response(Ok, s.(customers := s.customers[id := c.(name := name, email := email, phone := phone)]))
  }

  /** As written, an update can give a customer the email of another one. */
  lemma UpdateCustomerCanDuplicateEmail()
    ensures exists s: Store, id: Id, body: CustomerBody ::
      EmailsUnique(s) && UpdateCustomer(s, id, body).status == Ok &&
      !EmailsUnique(UpdateCustomer(s, id, body).store)
  {
    var s := Store(map[1 := Customer("a", "a@x", "", {}), 2 := Customer("b", "b@x", "", {})], map[], map[], map[]);
    var body := CustomerBody(None, Some("b@x"), None);
    var t := UpdateCustomer(s, 1, body).store;
    assert t.customers[1].email == t.customers[2].email;
  }

  /** `updateCustomer` with the uniqueness rule of `addCustomer` applied to
      a new email: an email held by another customer is rejected with 400. */
  function UpdateCustomerChecked(s: Store, id: Id, body: CustomerBody): (r: Response)
    ensures r.status == Ok || r.status == NotFound || r.status == BadRequest
    ensures r.status == NotFound <==> id !in s.customers
    ensures r.status == BadRequest <==>
      id in s.customers && body.email.Some? && body.email.value != s.customers[id].email && EmailTaken(s, body.email.value)
    ensures r.status != Ok ==> r.store == s
    ensures r.status == Ok ==> r.store == UpdateCustomer(s, id, body).store
  {
    if id !in s.customers then Response(NotFound, s)
    else if body.email.Some? && body.email.value != s.customers[id].email && EmailTaken(s, body.email.value) then
      Response(BadRequest, s)
    else UpdateCustomer(s, id, body)
  }

  /** The checked update keeps emails unique. */
  lemma UpdateCustomerCheckedKeepsEmailsUnique(s: Store, id: Id, body: CustomerBody)
    requires EmailsUnique(s)
    ensures EmailsUnique(UpdateCustomerChecked(s, id, body).store)
  {
    var r := UpdateCustomerChecked(s, id, body);
    if r.status == Ok {
      var t := r.store;
      forall a, b | a in t.customers && b in t.customers && a != b
        ensures t.customers[a].email != t.customers[b].email
      {
        if a == id && body.email.Some? && body.email.value != s.customers[id].email {
          assert !(s.customers[b].email == body.email.value);
        } else if b == id && body.email.Some? && body.email.value != s.customers[id].email {
          assert !(s.customers[a].email == body.email.value);
        }
      }
    }
  }

  /** `deleteCustomerById`: the customer document goes and nothing else
      changes; orders that point at it keep doing so. */
  function DeleteCustomerById(s: Store, id: Id): (r: Response)
    ensures r.status == Ok || r.status == NotFound
    ensures r.status == NotFound <==> id !in s.customers
    ensures r.status == NotFound ==> r.store == s
    ensures r.status == Ok ==>
      && r.store.customers.Keys == s.customers.Keys - {id}
      && (forall c :: c in r.store.customers ==> r.store.customers[c] == s.customers[c])
      && r.store.businesses == s.businesses
      && r.store.categories == s.categories
      && r.store.orders == s.orders
  {
    if id !in s.customers then Response(NotFound, s)
    else Response(Ok, s.(customers := s.customers - {id}))
  }

  /** Deleting a customer keeps every invariant over the remaining
      documents, but leaves the customer's orders pointing at a missing
      document. */
  lemma DeleteCustomerKeepsInvariants(s: Store, id: Id)
    ensures var t := DeleteCustomerById(s, id).store;
      && (EmailsUnique(s) ==> EmailsUnique(t))
      && (OrdersLinked(s) ==> OrdersLinked(t))
      && (LinksSymmetric(s) ==> LinksSymmetric(t))
      && (RefsBacked(s) ==> RefsBacked(t))
      && (forall o :: o in s.orders && s.orders[o].customer == id ==> o in t.orders && id !in t.customers)
  {
    var t := DeleteCustomerById(s, id).store;
    RemovingCustomerKeepsRefs(s, t);
  }

  /** Removing customers, and writing nothing else, keeps both directions
      of the order links among the documents that remain. */
  lemma RemovingCustomerKeepsRefs(s: Store, t: Store)
    requires t.customers.Keys <= s.customers.Keys
    requires forall c :: c in t.customers ==> t.customers[c] == s.customers[c]
    requires t.businesses == s.businesses && t.categories == s.categories && t.orders == s.orders
    ensures OrdersLinked(s) ==> OrdersLinked(t)
    ensures RefsBacked(s) ==> RefsBacked(t)
  {
    assert forall h :: Exists(t, h) ==> Exists(s, h) && OrderRefs(t, h) == OrderRefs(s, h);
  }
}

=== FILE: db.dfy ===
/** The document store the controllers read and write: four collections
    keyed by id, and the hand-maintained back-reference sets that tie them
    together. `addToSet` and `pull` on those sets are the only writes the
    relationship logic performs. */
module Db {
  import opened Basics
  import opened OrderSchema

  datatype Customer = Customer(name: string, email: string, phone: string, orders: set<Id>)

  datatype Business = Business(
    name: string, email: string, phone: string, postcode: string,
    orders: set<Id>, categories: set<Id>)

  datatype Category = Category(name: string, description: string, businesses: set<Id>, orders: set<Id>)

  datatype Store = Store(
    customers: map<Id, Customer>,
    businesses: map<Id, Business>,
    categories: map<Id, Category>,
    orders: map<Id, Order>)

  /** A handler's outcome: how it ended and the store it leaves behind,
      including every write made before a failure. */
  datatype Response = Response(status: Status, store: Store)

  /** A lookup answered by a get-by-id endpoint: the document, or 404. */
  datatype Lookup<T> = Found(doc: T) | Missing {
    function Status(): Status {
      if Found? then Ok else NotFound
    }
  }

  /** `Model.findById(x)` for an id that may be undefined: a missing id
      finds nothing. */
  predicate Has<T>(m: map<Id, T>, x: Option<Id>) {
    x.Some? && x.value in m
  }

  // ---------------------------------------------------------------------
  // Order back-references
  // ---------------------------------------------------------------------

  /** A document that carries an `orders` set. */
  datatype Holder = OfCustomer(id: Id) | OfBusiness(id: Id) | OfCategory(id: Id)

  predicate Exists(s: Store, h: Holder) {
    match h
    case OfCustomer(i) => i in s.customers
    case OfBusiness(i) => i in s.businesses
    case OfCategory(i) => i in s.categories
  }

  /** The `orders` set of a holder; empty when the holder does not exist. */
  function OrderRefs(s: Store, h: Holder): set<Id> {
    match h
    case OfCustomer(i) => if i in s.customers then s.customers[i].orders else {}
    case OfBusiness(i) => if i in s.businesses then s.businesses[i].orders else {}
    case OfCategory(i) => if i in s.categories then s.categories[i].orders else {}
  }

  /** A stored document seen without its `orders` set. */
  datatype Profile = Absent | CustomerProfile(c: Customer) | BusinessProfile(b: Business) | CategoryProfile(g: Category)

  /** What `h` holds apart from its `orders` set. */
  function ProfileOf(s: Store, h: Holder): (p: Profile)
    ensures p.Absent? <==> !Exists(s, h)
  {
    match h
    case OfCustomer(i) => if i in s.customers then CustomerProfile(s.customers[i].(orders := {})) else Absent
    case OfBusiness(i) => if i in s.businesses then BusinessProfile(s.businesses[i].(orders := {})) else Absent
    case OfCategory(i) => if i in s.categories then CategoryProfile(s.categories[i].(orders := {})) else Absent
  }

  /** `t` differs from `s` at most in the `orders` sets of customers,
      businesses and categories (the orders collection is compared
      separately): the same documents exist, with the same other fields. */
  ghost predicate OnlyOrderRefsDiffer(s: Store, t: Store) {
    && t.customers.Keys == s.customers.Keys
    && t.businesses.Keys == s.businesses.Keys
    && t.categories.Keys == s.categories.Keys
    && forall h :: ProfileOf(t, h) == ProfileOf(s, h)
  }

  /** Differing only in `orders` sets is transitive. */
  lemma OnlyOrderRefsDifferTrans(a: Store, b: Store, c: Store)
    requires OnlyOrderRefsDiffer(a, b) && OnlyOrderRefsDiffer(b, c)
    ensures OnlyOrderRefsDiffer(a, c)
  {
  }

  /** Writing the orders collection touches no back-reference set. */
  lemma OrdersFieldIgnored(s: Store, t: Store)
    requires t == s.(orders := t.orders)
    ensures OnlyOrderRefsDiffer(s, t)
    ensures forall h :: OrderRefs(t, h) == OrderRefs(s, h)
  {
  }

  /** Replaces the `orders` set of an existing holder. */
  function WithOrderRefs(s: Store, h: Holder, refs: set<Id>): (t: Store)
    requires Exists(s, h)
    ensures t.orders == s.orders
    ensures OnlyOrderRefsDiffer(s, t)
    ensures OrderRefs(t, h) == refs
    ensures forall g :: g != h ==> OrderRefs(t, g) == OrderRefs(s, g)
  {
    match h
    case OfCustomer(i) => s.(customers := s.customers[i := s.customers[i].(orders := refs)])
    case OfBusiness(i) => s.(businesses := s.businesses[i := s.businesses[i].(orders := refs)])
    case OfCategory(i) => s.(categories := s.categories[i := s.categories[i].(orders := refs)])
  }

  /** `holder.orders.addToSet(order); holder.save()`, for a holder that
      was found. */
  function AddOrderRef(s: Store, h: Holder, order: Id): (t: Store)
    requires Exists(s, h)
    ensures t.orders == s.orders
    ensures OnlyOrderRefsDiffer(s, t)
    ensures OrderRefs(t, h) == OrderRefs(s, h) + {order}
    ensures forall g :: g != h ==> OrderRefs(t, g) == OrderRefs(s, g)
    ensures order in OrderRefs(s, h) ==> t == s
  {
    if order in OrderRefs(s, h) then s
    else WithOrderRefs(s, h, OrderRefs(s, h) + {order})
  }

  /** `holder.orders.pull(order); holder.save()`, for a holder that was
      found. */
  function PullOrderRef(s: Store, h: Holder, order: Id): (t: Store)
    requires Exists(s, h)
    ensures t.orders == s.orders
    ensures OnlyOrderRefsDiffer(s, t)
    ensures OrderRefs(t, h) == OrderRefs(s, h) - {order}
    ensures forall g :: g != h ==> OrderRefs(t, g) == OrderRefs(s, g)
  {
    WithOrderRefs(s, h, OrderRefs(s, h) - {order})
  }

  /** Adds `order` to each holder of `hs`, one save after another. */
  function AttachAll(s: Store, hs: seq<Holder>, order: Id): (t: Store)
    requires forall i :: 0 <= i < |hs| ==> Exists(s, hs[i])
    ensures t.orders == s.orders
    ensures OnlyOrderRefsDiffer(s, t)
    ensures forall h :: OrderRefs(t, h) == if h in hs then OrderRefs(s, h) + {order} else OrderRefs(s, h)
    decreases |hs|
  {
    if |hs| == 0 then s
    else
      var s1 := AddOrderRef(s, hs[0], order);
      assert forall i :: 0 <= i < |hs[1..]| ==> ProfileOf(s1, hs[1..][i]) == ProfileOf(s, hs[1..][i]);
      AttachAll(s1, hs[1..], order)
  }

  /** Pulls `order` from each holder of `hs` that is stored, one save after
      another; holders that are not found are skipped. */
  function DetachAll(s: Store, hs: seq<Holder>, order: Id): (t: Store)
    ensures t.orders == s.orders
    ensures OnlyOrderRefsDiffer(s, t)
    ensures forall h :: OrderRefs(t, h) == if h in hs then OrderRefs(s, h) - {order} else OrderRefs(s, h)
    decreases |hs|
  {
    if |hs| == 0 then s
    else
      var s1 := if Exists(s, hs[0]) then PullOrderRef(s, hs[0], order) else s;
      DetachAll(s1, hs[1..], order)
  }

  /** Adding a reference that is already there writes nothing, so adding
      twice is adding once. */
  lemma AddOrderRefIdempotent(s: Store, h: Holder, order: Id)
    requires Exists(s, h)
    ensures AddOrderRef(AddOrderRef(s, h, order), h, order) == AddOrderRef(s, h, order)
  {
  }

  /** Pulling right after adding forgets the reference again. */
  lemma PullUndoesAdd(s: Store, h: Holder, order: Id)
    requires Exists(s, h)
    requires order !in OrderRefs(s, h)
    ensures PullOrderRef(AddOrderRef(s, h, order), h, order) == s
  {
    var t := PullOrderRef(AddOrderRef(s, h, order), h, order);
    assert OrderRefs(t, h) == OrderRefs(s, h);
    match h
    case OfCustomer(i) => assert t.customers == s.customers;
    case OfBusiness(i) => assert t.businesses == s.businesses;
    case OfCategory(i) => assert t.categories == s.categories;
  }

  // ---------------------------------------------------------------------
  // Category <-> Business links
  // ---------------------------------------------------------------------

  /** `t` differs from `s` at most in `Category.businesses` and
      `Business.categories`. */
  ghost predicate OnlyLinksDiffer(s: Store, t: Store) {
    && t.customers == s.customers
    && t.orders == s.orders
    && t.businesses.Keys == s.businesses.Keys
    && t.categories.Keys == s.categories.Keys
    && (forall k :: k in s.businesses ==> t.businesses[k] == s.businesses[k].(categories := t.businesses[k].categories))
    && (forall k :: k in s.categories ==> t.categories[k] == s.categories[k].(businesses := t.categories[k].businesses))
  }

  /** `category.businesses` and `business.categories` agree for every pair
      of stored documents. */
  ghost predicate LinksSymmetric(s: Store) {
    forall c, b :: c in s.categories && b in s.businesses ==>
      (b in s.categories[c].businesses <==> c in s.businesses[b].categories)
  }

  // ---------------------------------------------------------------------
  // Store invariants
  // ---------------------------------------------------------------------

  /** No two customers share an email. */
  ghost predicate EmailsUnique(s: Store) {
    forall a, b :: a in s.customers && b in s.customers && a != b ==>
      s.customers[a].email != s.customers[b].email
  }

  /** No two categories share a name. */
  ghost predicate CategoryNamesUnique(s: Store) {
    forall a, b :: a in s.categories && b in s.categories && a != b ==>
      s.categories[a].name != s.categories[b].name
  }

  /** Every stored order satisfies the Order schema. */
  ghost predicate OrdersValid(s: Store) {
    forall o :: o in s.orders ==> ValidOrder(s.orders[o])
  }

  /** The holders an order points at. */
  function HoldersOf(o: Order): set<Holder> {
    {OfCustomer(o.customer), OfCategory(o.category)}
      + (if o.business.Some? then {OfBusiness(o.business.value)} else {})
  }

  /** The customer, business and category of `o` are all stored. */
  predicate AllHoldersExist(s: Store, o: Order) {
    o.customer in s.customers && o.business.Some? && o.business.value in s.businesses && o.category in s.categories
  }

  /** Every stored order is listed in the `orders` set of each existing
      customer, business and category it points at. */
  ghost predicate OrdersLinked(s: Store) {
    forall o, h :: o in s.orders && h in HoldersOf(s.orders[o]) && Exists(s, h) ==> o in OrderRefs(s, h)
  }

  /** The converse of `OrdersLinked`: a holder lists only stored orders
      that point back at it. */
  ghost predicate RefsBacked(s: Store) {
    forall h, o :: Exists(s, h) && o in OrderRefs(s, h) ==> o in s.orders && h in HoldersOf(s.orders[o])
  }

  /** A write that keeps every other order, keeps or grows every other
      back-reference and links the written order keeps `OrdersLinked`. */
  lemma OrdersLinkedAfterWrite(s: Store, t: Store, id: Id)
    requires OrdersLinked(s)
    requires t.orders - {id} == s.orders - {id}
    requires forall h :: Exists(t, h) ==> Exists(s, h)
    requires forall h :: OrderRefs(s, h) - {id} <= OrderRefs(t, h)
    requires id in t.orders ==> forall h :: h in HoldersOf(t.orders[id]) && Exists(t, h) ==> id in OrderRefs(t, h)
    ensures OrdersLinked(t)
  {
    forall p, h | p in t.orders && h in HoldersOf(t.orders[p]) && Exists(t, h)
      ensures p in OrderRefs(t, h)
    {
      if p != id {
        assert p in t.orders - {id};
        assert t.orders[p] == s.orders[p];
        assert p in OrderRefs(s, h) - {id};
      }
    }
  }
}

=== FILE: listing.dfy ===
/** The list endpoint shared by the Order, Category and Customer
    controllers: apply the configured defaults to the query string, count
    the documents the query selects, fetch one page, and turn the answer
    into a response. */
module Listing {
  import opened Basics
  import opened Search

  /** The query string of a list request; every parameter may be missing. */
  datatype ListRequest = ListRequest(
    searchField: Option<string>,
    searchValue: Option<string>,
    pageRequested: Option<Num>,
    pageSize: Option<Num>,
    sortType: Option<string>,
    sortValue: Option<Num>)

  /** The configured defaults. The default search field doubles as the
      "no filter" sentinel. */
  datatype Defaults = Defaults(
    searchField: string,
    pageRequested: Num,
    pageSize: Num,
    sortType: string,
    sortValue: Num)

  /** The response of a list request. */
  datatype ListReply<T> =
    | NoDocuments
    | BadQuery(message: string)
    | Listed(documentCount: nat, documents: seq<T>)
  {
    function Status(): Status {
      match this
      case NoDocuments => NotFound
      case BadQuery(_) => ServerError
      case Listed(_, _) => Ok
    }
  }

  /** Destructuring the query string with defaults: a default replaces a
      parameter only when it is missing. */
  function Resolve(req: ListRequest, d: Defaults): (q: Query)
    ensures req.searchField.Some? ==> q.searchField == req.searchField.value
    ensures req.searchField.None? ==> q.searchField == d.searchField
    ensures q.searchValue == req.searchValue
    ensures req.pageRequested.Some? ==> q.pageRequested == req.pageRequested.value
    ensures req.pageRequested.None? ==> q.pageRequested == d.pageRequested
    ensures req.pageSize.Some? ==> q.pageSize == req.pageSize.value
    ensures req.pageSize.None? ==> q.pageSize == d.pageSize
    ensures req.sortType.Some? ==> q.sortType == req.sortType.value
    ensures req.sortType.None? ==> q.sortType == d.sortType
    ensures req.sortValue.Some? ==> q.sortValue == req.sortValue.value
    ensures req.sortValue.None? ==> q.sortValue == d.sortValue
  {
    Query(
      req.searchField.GetOr(d.searchField),
      req.searchValue,
      req.pageRequested.GetOr(d.pageRequested),
      req.pageSize.GetOr(d.pageSize),
      req.sortType.GetOr(d.sortType),
      req.sortValue.GetOr(d.sortValue))
  }

  /** `countDocuments`, with or without the filter, on the same choice that
      `searchByFilters` makes. */
  function CountDocuments<T>(coll: seq<T>, noFilterField: string, q: Query,
                             matches: (string, Option<string>, T) -> bool): (n: nat)
    ensures n <= |coll|
    ensures Unfiltered(q.searchField, noFilterField) ==> n == |coll|
    ensures !Unfiltered(q.searchField, noFilterField) ==>
      n == Count(coll, Matching(matches, q.searchField, q.searchValue))
  {
    FilterCount(coll, Matching(matches, q.searchField, q.searchValue));
    |Select(coll, q.searchField, q.searchValue, noFilterField, matches)|
  }

  /** `getAll…`: an answer of length zero is 404, an error string is 500,
      and anything else is 200 with the count and the page. */
  function ListDocuments<T>(coll: seq<T>, d: Defaults, req: ListRequest,
                            matches: (string, Option<string>, T) -> bool,
                            rank: (string, T) -> int): (r: ListReply<T>)
    ensures r.BadQuery? <==> !ValidQuery(Resolve(req, d))
    ensures r.Status() == ServerError <==> !ValidQuery(Resolve(req, d))
    ensures r.Status() == NotFound <==> SearchByFilters(coll, d.searchField, Resolve(req, d), matches, rank) == Docs([])
    ensures r.BadQuery? ==> SearchByFilters(coll, d.searchField, Resolve(req, d), matches, rank) == Invalid(r.message)
    ensures !Positive(Resolve(req, d).pageSize) ==> r == BadQuery(PageSizeInvalid)
    ensures r.NoDocuments? <==> SearchByFilters(coll, d.searchField, Resolve(req, d), matches, rank) == Docs([])
    ensures r.Listed? ==> SearchByFilters(coll, d.searchField, Resolve(req, d), matches, rank) == Docs(r.documents)
    ensures r.Listed? ==> 0 < |r.documents| <= r.documentCount
    ensures r.Listed? ==> |r.documents| <= Resolve(req, d).pageSize.n
    ensures r.Listed? ==> r.documentCount == CountDocuments(coll, d.searchField, Resolve(req, d), matches)
  {
    var q := Resolve(req, d);
    var documentCount := CountDocuments(coll, d.searchField, q, matches);
    var documents := SearchByFilters(coll, d.searchField, q, matches, rank);
    if documents.Length() == 0 then NoDocuments
    else if documents.Invalid? then BadQuery(documents.message)
    else Listed(documentCount, documents.docs)
  }

  /** The dispatch agrees with the search: a valid query is answered with
      a page exactly when the page starts inside the counted documents, and
      that page is the requested slice of the sorted matches. */
  lemma ListedWithinCount<T>(coll: seq<T>, d: Defaults, req: ListRequest,
                             matches: (string, Option<string>, T) -> bool,
                             rank: (string, T) -> int)
    requires ValidQuery(Resolve(req, d))
    ensures var q := Resolve(req, d);
      ListDocuments(coll, d, req, matches, rank).Listed? <==>
        (q.pageRequested.n - 1) * q.pageSize.n < CountDocuments(coll, d.searchField, q, matches)
    ensures var q := Resolve(req, d);
      var r := ListDocuments(coll, d, req, matches, rank);
      r.Listed? ==> r.documents == Page(Ranked(coll, d.searchField, q, matches, rank), q.pageRequested.n, q.pageSize.n)
  {
    var q := Resolve(req, d);
    var all := Ranked(coll, d.searchField, q, matches, rank);
    RankedLength(coll, d.searchField, q, matches, rank);
    RequestedPage(coll, d.searchField, q, matches, rank, q.pageRequested.n);
    assert q.(pageRequested := Num(q.pageRequested.n)) == q;
    PageEmpty(all, q.pageRequested.n, q.pageSize.n);
  }
}

=== FILE: order_schema.dfy ===
/** The Order document and the constraints its schema enforces when a
    document is saved or an update is validated: required customer and
    category references, an optional business reference, a status drawn
    from {ongoing, finished} that defaults to ongoing, a required job
    location stored in lower case, and an optional rate between 0 and 5. */
module OrderSchema {
  import opened Basics

  datatype OrderStatus = Ongoing | Finished

  /** A stored order. `customer` and `category` are required references;
      `business` is optional. Timestamps and the estimated completion date
      are not modelled. */
  datatype Order = Order(
    customer: Id,
    business: Option<Id>,
    category: Id,
    status: OrderStatus,
    jobLocation: string,
    rate: Option<int>,
    comment: Option<string>)

  /** The body of an add-order or update-order request; every field may be
      missing. */
  datatype OrderBody = OrderBody(
    customer: Option<Id>,
    business: Option<Id>,
    category: Option<Id>,
    status: Option<string>,
    jobLocation: Option<string>,
    rate: Option<int>,
    comment: Option<string>)

  // ---------------------------------------------------------------------
  // Lower-casing of the job location
  // ---------------------------------------------------------------------

  predicate IsUpper(c: char) {
    'A' <= c <= 'Z'
  }

  /** Lower-cases one character; only the ASCII letters are mapped. */
  function LowerChar(c: char): (r: char)
    ensures !IsUpper(r)
    ensures IsUpper(c) ==> r as int == c as int + 32
    ensures !IsUpper(c) ==> r == c
  {
    if IsUpper(c) then (c as int + 32) as char else c
  }

  /** True when no character of `s` is an upper-case letter. */
  predicate IsLower(s: string) {
    forall i :: 0 <= i < |s| ==> !IsUpper(s[i])
  }

  /** The `lowercase: true` setter of the job location. */
  function ToLower(s: string): (r: string)
    ensures |r| == |s|
    ensures IsLower(r)
    ensures forall i :: 0 <= i < |s| && !IsUpper(s[i]) ==> r[i] == s[i]
    ensures forall i :: 0 <= i < |s| && IsUpper(s[i]) ==> r[i] as int == s[i] as int + 32
  {
    seq(|s|, i requires 0 <= i < |s| => LowerChar(s[i]))
  }

  /** Lower-casing changes nothing in a string that has no upper-case
      letter, so applying the setter twice is the same as applying it once. */
  lemma ToLowerFixesLower(s: string)
    requires IsLower(s)
    ensures ToLower(s) == s
  {
  }

  lemma ToLowerIdempotent(s: string)
    ensures ToLower(ToLower(s)) == ToLower(s)
  {
    ToLowerFixesLower(ToLower(s));
  }

  // ---------------------------------------------------------------------
  // Field validators
  // ---------------------------------------------------------------------

  /** The `status` enum with its default: a missing status becomes ongoing,
      and any string other than the two enum values fails validation. */
  function ParseStatus(s: Option<string>): (r: Option<OrderStatus>)
    ensures s.None? ==> r == Some(Ongoing)
    ensures r == Some(Finished) <==> s == Some("finished")
    ensures r.None? <==> (s.Some? && s.value != "ongoing" && s.value != "finished")
  {
    match s
    case None => Some(Ongoing)
    case Some(v) =>
      if v == "ongoing" then Some(Ongoing)
      else if v == "finished" then Some(Finished)
      else None
  }

  /** The `rate` enum [0..5] together with its range validator. */
  predicate ValidRate(rate: Option<int>) {
    rate.Some? ==> 0 <= rate.value <= 5
  }

  /** The required, lower-cased job location: after the setter the value
      must be a non-empty string. */
  function ParseLocation(loc: Option<string>): (r: Option<string>)
    ensures r.Some? <==> (loc.Some? && |loc.value| > 0)
    ensures r.Some? ==> IsLower(r.value) && |r.value| == |loc.value|
    ensures r.Some? && IsLower(loc.value) ==> r.value == loc.value
    ensures r.Some? ==> r.value == ToLower(loc.value)
  {
    match loc
    case None => None
    case Some(l) => if |l| == 0 then None else Some(ToLower(l))
  }

  /** Every order the schema lets into the collection satisfies this. */
  predicate ValidOrder(o: Order) {
    && ValidRate(o.rate)
    && |o.jobLocation| > 0
    && IsLower(o.jobLocation)
  }

  /** Builds and validates the document that `new Order(body)` followed by
      `save()` would store, once the customer and category references have
      been resolved. `None` means validation rejects the document. */
  function NewOrder(body: OrderBody, customer: Id, category: Id): (r: Option<Order>)
    ensures r.Some? <==>
      (ParseStatus(body.status).Some? && ParseLocation(body.jobLocation).Some? && ValidRate(body.rate))
    ensures r.Some? ==> ValidOrder(r.value)
    ensures r.Some? ==>
      && r.value.customer == customer
      && r.value.category == category
      && r.value.business == body.business
      && r.value.rate == body.rate
      && r.value.comment == body.comment
    ensures r.Some? ==> r.value.status == ParseStatus(body.status).value
    ensures r.Some? ==> r.value.jobLocation == ToLower(body.jobLocation.value)
    ensures r.Some? && body.status.None? ==> r.value.status == Ongoing
  {
    var status := ParseStatus(body.status);
    var location := ParseLocation(body.jobLocation);
    if status.None? || location.None? || !ValidRate(body.rate) then None
    else Some(Order(customer, body.business, category, status.value,
                    location.value, body.rate, body.comment))
  }

  /** The record that a validated `findByIdAndUpdate` leaves behind. The
      business reference becomes the requested one (the handler treats a
      missing business as removing it); a supplied category replaces the old
      one; every other missing field keeps its stored value. The customer
      can never change here. `None` means an update validator rejects it. */
  function PatchOrder(o: Order, body: OrderBody): (r: Option<Order>)
    ensures r.Some? <==>
      && (body.status.Some? ==> ParseStatus(body.status).Some?)
      && (body.jobLocation.Some? ==> ParseLocation(body.jobLocation).Some?)
      && ValidRate(body.rate)
    ensures r.Some? ==>
      && r.value.customer == o.customer
      && r.value.business == body.business
      && r.value.category == body.category.GetOr(o.category)
      && (body.status.None? ==> r.value.status == o.status)
      && (body.jobLocation.None? ==> r.value.jobLocation == o.jobLocation)
      && (body.rate.None? ==> r.value.rate == o.rate)
      && (body.comment.None? ==> r.value.comment == o.comment)
    ensures r.Some? ==>
      && (body.status.Some? ==> r.value.status == ParseStatus(body.status).value)
      && (body.jobLocation.Some? ==> r.value.jobLocation == ToLower(body.jobLocation.value))
      && (body.rate.Some? ==> r.value.rate == body.rate)
      && (body.comment.Some? ==> r.value.comment == body.comment)
    ensures r.Some? && ValidOrder(o) ==> ValidOrder(r.value)
  {
    var status := if body.status.None? then Some(o.status) else ParseStatus(body.status);
    var location := if body.jobLocation.None? then Some(o.jobLocation) else ParseLocation(body.jobLocation);
    if status.None? || location.None? || !ValidRate(body.rate) then None
    else
      Some(Order(
        o.customer,
        body.business,
        body.category.GetOr(o.category),
        status.value,
        location.value,
        if body.rate.Some? then body.rate else o.rate,
        if body.comment.Some? then body.comment else o.comment))
  }
}

=== FILE: orders.dfy ===
/** The Order controller: creating, updating and deleting an order while
    keeping the `orders` sets of its customer, business and category in
    step, and reading orders back. */
module Orders {
  import opened Basics
  import opened OrderSchema
  import opened Db

  // ---------------------------------------------------------------------
  // addOrder
  // ---------------------------------------------------------------------

  /** The holders `addOrder` attaches a new order to, in the order it
      saves them. */
  function AddTargets(body: OrderBody): seq<Holder>
    requires body.customer.Some? && body.category.Some?
  {
    BusinessHolders(body.business) + [OfCustomer(body.customer.value), OfCategory(body.category.value)]
  }

  /** The business an order points at, as zero or one holder. */
  function BusinessHolders(b: Option<Id>): seq<Holder> {
    if b.Some? then [OfBusiness(b.value)] else []
  }

  /** A reference the add-order handler fails to resolve. */
  predicate AddOrderMissingRef(s: Store, body: OrderBody) {
    || !Has(s.customers, body.customer)
    || !Has(s.categories, body.category)
    || (body.business.Some? && body.business.value !in s.businesses)
  }

  /** `addOrder`. `id` is the object id the new document receives. Every
      lookup happens before any write, so a 404 leaves the store as it was;
      the back-references are saved before the order itself, so a document
      that fails schema validation leaves them behind. */
  function AddOrder(s: Store, id: Id, body: OrderBody): (r: Response)
    ensures r.status == Ok || r.status == NotFound || r.status == Crashed
    ensures r.status == NotFound <==> AddOrderMissingRef(s, body)
    ensures r.status == NotFound ==> r.store == s
    ensures r.status != NotFound ==>
      && OnlyOrderRefsDiffer(s, r.store)
      && (forall h :: OrderRefs(r.store, h) ==
            if h in AddTargets(body) then OrderRefs(s, h) + {id} else OrderRefs(s, h))
    ensures r.status == Ok <==>
      !AddOrderMissingRef(s, body) && NewOrder(body, body.customer.value, body.category.value).Some?
    ensures r.status == Ok ==>
      && id in r.store.orders
      && r.store.orders - {id} == s.orders - {id}
      && r.store.orders[id].customer == body.customer.value
      && r.store.orders[id].category == body.category.value
      && r.store.orders[id].business == body.business
      && ValidOrder(r.store.orders[id])
    ensures r.status == Ok ==> NewOrder(body, body.customer.value, body.category.value) == Some(r.store.orders[id])
    ensures r.status != Ok ==> r.store.orders == s.orders
  {
    if !Has(s.customers, body.customer) then Response(NotFound, s)
    else if !Has(s.categories, body.category) then Response(NotFound, s)
    else if body.business.Some? && body.business.value !in s.businesses then Response(NotFound, s)
    else
      var customer := body.customer.value;
      var category := body.category.value;
      var s1 := AttachAll(s, AddTargets(body), id);
      match NewOrder(body, customer, category)
      case None => Response(Crashed, s1)
      case Some(o) =>
        var t := s1.(orders := s1.orders[id := o]);
        OrdersFieldIgnored(s1, t);
        OnlyOrderRefsDifferTrans(s, s1, t);
        Response(Ok, t)
  }

  // ---------------------------------------------------------------------
  // updateOrder
  // ---------------------------------------------------------------------

  /** How a document loaded before another write to the same record is
      saved. `Intended`: `addToSet` acts on the stored set. `AsSaved`: the
      add is decided against the copy loaded earlier, so when that copy
      already lists the id nothing is written, even if a pull saved in the
      meantime removed it from the stored set. */
  datatype SaveMode = Intended | AsSaved

  /** Loads `next`, pulls `order` from the `previous` holder when it is
      found, then adds `order` to `next` (in `AsSaved` mode only when the
      copy of `next` loaded first did not list it). */
  function MoveOrderRef(mode: SaveMode, s: Store, order: Id, previous: seq<Holder>, next: Holder): (t: Store)
    requires Exists(s, next)
    ensures t.orders == s.orders
    ensures OnlyOrderRefsDiffer(s, t)
    ensures forall h ::
              var pulled := if h in previous then OrderRefs(s, h) - {order} else OrderRefs(s, h);
              OrderRefs(t, h) == if h == next && (mode == Intended || order !in OrderRefs(s, next)) then pulled + {order} else pulled
  {
    var loaded := OrderRefs(s, next);
    var s1 := DetachAll(s, previous, order);
    if mode == AsSaved && order in loaded then s1 else AttachAll(s1, [next], order)
  }

  /** The update gets past the order lookup, the customer check and the
      business lookup, so the business edits are saved. */
  predicate PassesBusinessStep(s: Store, id: Id, body: OrderBody) {
    && id in s.orders
    && body.customer.None?
    && (body.business.None? || body.business.value in s.businesses)
  }

  /** The update also gets past the category lookup. */
  predicate PassesCategoryStep(s: Store, id: Id, body: OrderBody) {
    PassesBusinessStep(s, id, body) && (body.category.None? || body.category.value in s.categories)
  }

  /** Lines up the business side of an update: with a business in the
      request the order moves from its previous business to that one;
      without one it is pulled from its previous business. */
  function BusinessStep(mode: SaveMode, s: Store, id: Id, o: Order, body: OrderBody): (t: Store)
    requires body.business.None? || body.business.value in s.businesses
    ensures t.orders == s.orders
    ensures OnlyOrderRefsDiffer(s, t)
    ensures forall h :: OrderRefs(t, h) - {id} == OrderRefs(s, h) - {id}
    ensures forall h: Holder :: !h.OfBusiness? ==> OrderRefs(t, h) == OrderRefs(s, h)
    ensures body.business.Some? && (mode == Intended || o.business != body.business) ==>
      id in OrderRefs(t, OfBusiness(body.business.value))
    ensures o.business.Some? && body.business != o.business ==> id !in OrderRefs(t, OfBusiness(o.business.value))
    ensures forall b: Id :: o.business != Some(b) && body.business != Some(b) ==>
      OrderRefs(t, OfBusiness(b)) == OrderRefs(s, OfBusiness(b))
  {
    if body.business.Some? then MoveOrderRef(mode, s, id, BusinessHolders(o.business), OfBusiness(body.business.value))
    else DetachAll(s, BusinessHolders(o.business), id)
  }

  /** Lines up the category side of an update: a category in the request
      takes the order over from the previous one. */
  function CategoryStep(mode: SaveMode, s: Store, id: Id, o: Order, body: OrderBody): (t: Store)
    requires body.category.None? || body.category.value in s.categories
    ensures t.orders == s.orders
    ensures OnlyOrderRefsDiffer(s, t)
    ensures forall h :: OrderRefs(t, h) - {id} == OrderRefs(s, h) - {id}
    ensures forall h: Holder :: !h.OfCategory? ==> OrderRefs(t, h) == OrderRefs(s, h)
    ensures body.category.Some? && (mode == Intended || o.category != body.category.value) ==>
      id in OrderRefs(t, OfCategory(body.category.value))
    ensures body.category.Some? && body.category.value != o.category ==> id !in OrderRefs(t, OfCategory(o.category))
    ensures forall c: Id :: c != o.category && body.category != Some(c) ==>
      OrderRefs(t, OfCategory(c)) == OrderRefs(s, OfCategory(c))
    ensures body.category.None? ==> t == s
  {
    if body.category.Some? then MoveOrderRef(mode, s, id, [OfCategory(o.category)], OfCategory(body.category.value))
    else s
  }

  /** `updateOrder`. The request's customer is a string and the stored one
      an object id, so they are never strictly equal: supplying any customer
      is rejected, and supplying any business or category takes the "changed"
      branch. Business edits are saved before the category lookup and stay
      when it fails; everything the handler wrote stays when the final
      validated update is rejected. */
  function UpdateOrder(mode: SaveMode, s: Store, id: Id, body: OrderBody): (r: Response)
    ensures r.status == Ok || r.status == BadRequest || r.status == NotFound || r.status == Crashed
    ensures id !in s.orders ==> r == Response(NotFound, s)
    ensures id in s.orders && body.customer.Some? ==> r == Response(BadRequest, s)
    ensures r.status == BadRequest <==> id in s.orders && body.customer.Some?
    ensures id in s.orders && body.customer.None? && body.business.Some? && body.business.value !in s.businesses ==>
      r == Response(NotFound, s)
    ensures r.status == NotFound <==>
      id !in s.orders || (body.customer.None? && !PassesCategoryStep(s, id, body))
    ensures OnlyOrderRefsDiffer(s, r.store)
    // the order document
    ensures r.status == Ok <==> PassesCategoryStep(s, id, body) && PatchOrder(s.orders[id], body).Some?
    ensures r.status == Ok ==>
      && id in r.store.orders
      && r.store.orders - {id} == s.orders - {id}
      && PatchOrder(s.orders[id], body) == Some(r.store.orders[id])
      && r.store.orders[id].customer == s.orders[id].customer
    ensures r.status != Ok ==> r.store.orders == s.orders
  {
    if id !in s.orders then Response(NotFound, s)
    else if body.customer.Some? then Response(BadRequest, s)
    else if body.business.Some? && body.business.value !in s.businesses then Response(NotFound, s)
    else UpdateWrites(mode, s, id, body)
  }

  /** What `updateOrder` writes once the order, customer and business
      checks have passed: the business step, the category lookup, the
      category step and the validated update of the order itself. */
  function UpdateWrites(mode: SaveMode, s: Store, id: Id, body: OrderBody): (r: Response)
    requires PassesBusinessStep(s, id, body)
    ensures r.status == Ok || r.status == NotFound || r.status == Crashed
    ensures r.status == NotFound <==> !PassesCategoryStep(s, id, body)
    ensures OnlyOrderRefsDiffer(s, r.store)
    ensures r.status == Ok <==> PassesCategoryStep(s, id, body) && PatchOrder(s.orders[id], body).Some?
    ensures r.status == Ok ==>
      && id in r.store.orders
      && r.store.orders - {id} == s.orders - {id}
      && PatchOrder(s.orders[id], body) == Some(r.store.orders[id])
    ensures r.status != Ok ==> r.store.orders == s.orders
  {
    var o := s.orders[id];
    var s1 := BusinessStep(mode, s, id, o, body);
    if body.category.Some? && body.category.value !in s1.categories then Response(NotFound, s1)
    else
      var s2 := CategoryStep(mode, s1, id, o, body);
      OnlyOrderRefsDifferTrans(s, s1, s2);
      match PatchOrder(o, body)
      case None => Response(Crashed, s2)
      case Some(updated) =>
        var t := s2.(orders := s2.orders[id := updated]);
        OrdersFieldIgnored(s2, t);
        OnlyOrderRefsDifferTrans(s, s2, t);
        Response(Ok, t)
  }

  /** The back-reference sets an update leaves: those of the category step
      when it is reached, else those of the business step, else the
      original ones (writing the order document does not touch them). */
  lemma UpdateOrderRefsStore(mode: SaveMode, s: Store, id: Id, body: OrderBody)
    ensures var t := UpdateOrder(mode, s, id, body).store;
      && (!PassesBusinessStep(s, id, body) ==> t == s)
      && (PassesBusinessStep(s, id, body) && !PassesCategoryStep(s, id, body) ==>
            t == BusinessStep(mode, s, id, s.orders[id], body))
      && (PassesCategoryStep(s, id, body) ==>
            var s1 := BusinessStep(mode, s, id, s.orders[id], body);
            forall h :: OrderRefs(t, h) == OrderRefs(CategoryStep(mode, s1, id, s.orders[id], body), h))
  {
    if PassesBusinessStep(s, id, body) {
      UpdateWritesRefs(mode, s, id, body);
    }
  }

  /** The same, for the writes past the business lookup. */
  lemma UpdateWritesRefs(mode: SaveMode, s: Store, id: Id, body: OrderBody)
    requires PassesBusinessStep(s, id, body)
    ensures var t := UpdateWrites(mode, s, id, body).store;
      && (!PassesCategoryStep(s, id, body) ==> t == BusinessStep(mode, s, id, s.orders[id], body))
      && (PassesCategoryStep(s, id, body) ==>
            var s1 := BusinessStep(mode, s, id, s.orders[id], body);
            forall h :: OrderRefs(t, h) == OrderRefs(CategoryStep(mode, s1, id, s.orders[id], body), h))
  {
    if PassesCategoryStep(s, id, body) {
      var o := s.orders[id];
      var s1 := BusinessStep(mode, s, id, o, body);
      var s2 := CategoryStep(mode, s1, id, o, body);
      var t := UpdateWrites(mode, s, id, body).store;
      assert t == s2.(orders := t.orders);
      OrdersFieldIgnored(s2, t);
    }
  }

  /** Only this order's id moves, and never in a customer's set; when the
      category lookup fails no category set has changed. */
  lemma UpdateOrderMovesOnlyItsId(mode: SaveMode, s: Store, id: Id, body: OrderBody)
    ensures var t := UpdateOrder(mode, s, id, body).store;
      && (forall h :: OrderRefs(t, h) - {id} == OrderRefs(s, h) - {id})
      && (forall c: Id :: OrderRefs(t, OfCustomer(c)) == OrderRefs(s, OfCustomer(c)))
      && (PassesBusinessStep(s, id, body) && !PassesCategoryStep(s, id, body) ==>
            forall c: Id :: OrderRefs(t, OfCategory(c)) == OrderRefs(s, OfCategory(c)))
  {
    UpdateOrderRefsStore(mode, s, id, body);
  }

  /** The business side of an update: the order leaves its previous
      business and joins the requested one, as written whenever that is a
      different business and with the intended saves always; no other
      business changes. These edits stay even when the category
      lookup then fails. */
  lemma UpdateOrderMovesBusiness(mode: SaveMode, s: Store, id: Id, body: OrderBody)
    requires PassesBusinessStep(s, id, body)
    ensures var t := UpdateOrder(mode, s, id, body).store;
      && (body.business.Some? && (mode == Intended || body.business != s.orders[id].business) ==>
            id in OrderRefs(t, OfBusiness(body.business.value)))
      && (s.orders[id].business.Some? && body.business != s.orders[id].business ==>
            id !in OrderRefs(t, OfBusiness(s.orders[id].business.value)))
      && (forall b: Id :: s.orders[id].business != Some(b) && body.business != Some(b) ==>
            OrderRefs(t, OfBusiness(b)) == OrderRefs(s, OfBusiness(b)))
  {
    UpdateKeepsBusinessStep(mode, s, id, body);
  }

  /** Past the business lookup, the business sets an update leaves are
      those of its business step. */
  lemma UpdateKeepsBusinessStep(mode: SaveMode, s: Store, id: Id, body: OrderBody)
    requires PassesBusinessStep(s, id, body)
    ensures forall b: Id :: OrderRefs(UpdateOrder(mode, s, id, body).store, OfBusiness(b))
                         == OrderRefs(BusinessStep(mode, s, id, s.orders[id], body), OfBusiness(b))
  {
    UpdateOrderRefsStore(mode, s, id, body);
    if PassesCategoryStep(s, id, body) {
      var o := s.orders[id];
      var s1 := BusinessStep(mode, s, id, o, body);
      var s2 := CategoryStep(mode, s1, id, o, body);
      assert forall b: Id :: OrderRefs(s2, OfBusiness(b)) == OrderRefs(s1, OfBusiness(b));
    }
  }

  /** The category side of a successful lookup: the order leaves its
      previous category and joins the requested one, as written whenever
      that is a different category and with the intended saves always; no
      other category changes. */
  lemma UpdateOrderMovesCategory(mode: SaveMode, s: Store, id: Id, body: OrderBody)
    requires PassesCategoryStep(s, id, body)
    ensures var t := UpdateOrder(mode, s, id, body).store;
      && (body.category.Some? && (mode == Intended || body.category.value != s.orders[id].category) ==>
            id in OrderRefs(t, OfCategory(body.category.value)))
      && (body.category.Some? && body.category.value != s.orders[id].category ==>
            id !in OrderRefs(t, OfCategory(s.orders[id].category)))
      && (forall c: Id :: c != s.orders[id].category && body.category != Some(c) ==>
            OrderRefs(t, OfCategory(c)) == OrderRefs(s, OfCategory(c)))
      && (body.category.None? ==> forall c: Id :: OrderRefs(t, OfCategory(c)) == OrderRefs(s, OfCategory(c)))
  {
    UpdateOrderRefsStore(mode, s, id, body);
  }

  // ---------------------------------------------------------------------
  // deleteOrderById
  // ---------------------------------------------------------------------

  /** The holders of an order in the order the delete handler visits them. */
  function HolderSeq(o: Order): (hs: seq<Holder>)
    ensures forall h :: h in hs <==> h in HoldersOf(o)
  {
    [OfCustomer(o.customer)] + BusinessHolders(o.business) + [OfCategory(o.category)]
  }

  /** `deleteOrderById` as written: the order is deleted first, then its
      customer, business and category are looked up and dereferenced
      without a null check, in that order. A holder that is not found
      (always the business of an order that has none) crashes the handler,
      keeping the deletion and the pulls already saved. */
  function DeleteOrderById(s: Store, id: Id): (r: Response)
    ensures r.status == Ok || r.status == NotFound || r.status == Crashed
    ensures id !in s.orders ==> r == Response(NotFound, s)
    ensures id in s.orders ==> r.store.orders == s.orders - {id}
    ensures id in s.orders ==>
      (r.status == Ok <==> AllHoldersExist(s, s.orders[id]))
    ensures id in s.orders ==> s.orders[id].business.None? ==> r.status == Crashed
    ensures OnlyOrderRefsDiffer(s, r.store)
    ensures forall h :: OrderRefs(r.store, h) == OrderRefs(s, h) || OrderRefs(r.store, h) == OrderRefs(s, h) - {id}
    ensures id in s.orders ==> forall h :: h !in HoldersOf(s.orders[id]) ==> OrderRefs(r.store, h) == OrderRefs(s, h)
    ensures id in s.orders && Exists(s, OfCustomer(s.orders[id].customer)) ==>
      id !in OrderRefs(r.store, OfCustomer(s.orders[id].customer))
    ensures r.status == Ok ==> forall h :: h in HoldersOf(s.orders[id]) ==> id !in OrderRefs(r.store, h)
    // the writes kept when a lookup fails
    ensures id in s.orders && s.orders[id].customer !in s.customers ==>
      forall h :: OrderRefs(r.store, h) == OrderRefs(s, h)
    ensures id in s.orders && s.orders[id].customer in s.customers &&
            s.orders[id].business.Some? && s.orders[id].business.value in s.businesses ==>
      id !in OrderRefs(r.store, OfBusiness(s.orders[id].business.value))
    ensures id in s.orders && !(s.orders[id].customer in s.customers &&
            s.orders[id].business.Some? && s.orders[id].business.value in s.businesses) ==>
      OrderRefs(r.store, OfCategory(s.orders[id].category)) == OrderRefs(s, OfCategory(s.orders[id].category))
  {
    if id !in s.orders then Response(NotFound, s)
    else
      var o := s.orders[id];
      var s1 := s.(orders := s.orders - {id});
      OrdersFieldIgnored(s, s1);
      var visited :=
        if o.customer !in s1.customers then []
        else if o.business.None? || o.business.value !in s1.businesses then [OfCustomer(o.customer)]
        else if o.category !in s1.categories then [OfCustomer(o.customer), OfBusiness(o.business.value)]
        else HolderSeq(o);
      var t := DetachAll(s1, visited, id);
      OnlyOrderRefsDifferTrans(s, s1, t);
      Response(if AllHoldersExist(s1, o) then Ok else Crashed, t)
  }

  /** `deleteOrderById` with every lookup checked: each holder that is
      found loses the order's id, and the handler always answers. */
  function DeleteOrderByIdChecked(s: Store, id: Id): (r: Response)
    ensures r.status == Ok || r.status == NotFound
    ensures r.status == NotFound <==> id !in s.orders
    ensures id !in s.orders ==> r.store == s
    ensures id in s.orders ==> r.store.orders == s.orders - {id}
    ensures OnlyOrderRefsDiffer(s, r.store)
    ensures id in s.orders ==> forall h ::
      OrderRefs(r.store, h) == if h in HoldersOf(s.orders[id]) then OrderRefs(s, h) - {id} else OrderRefs(s, h)
  {
    if id !in s.orders then Response(NotFound, s)
    else
      var o := s.orders[id];
      var s1 := s.(orders := s.orders - {id});
      OrdersFieldIgnored(s, s1);
      var t := DetachAll(s1, HolderSeq(o), id);
      OnlyOrderRefsDifferTrans(s, s1, t);
      Response(Ok, t)
  }

  // ---------------------------------------------------------------------
  // getOrderById
  // ---------------------------------------------------------------------

  /** `getOrderById`, without the population of referenced documents. */
  function GetOrderById(s: Store, id: Id): (r: Lookup<Order>)
    ensures r.Status() == NotFound <==> id !in s.orders
    ensures r.Found? ==> r.doc == s.orders[id]
  {
    if id in s.orders then Found(s.orders[id]) else Missing
  }

  // ---------------------------------------------------------------------
  // Properties relating several handlers
  // ---------------------------------------------------------------------

  /** A successful add attaches the order to every holder it names, and a
      holder that already listed the id is left exactly as it was. */
  lemma AddOrderAttaches(s: Store, id: Id, body: OrderBody)
    requires AddOrder(s, id, body).status == Ok
    ensures id in OrderRefs(AddOrder(s, id, body).store, OfCustomer(body.customer.value))
    ensures id in OrderRefs(AddOrder(s, id, body).store, OfCategory(body.category.value))
    ensures forall b: Id :: id in OrderRefs(AddOrder(s, id, body).store, OfBusiness(b)) <==>
      body.business == Some(b) || id in OrderRefs(s, OfBusiness(b))
    ensures forall h :: id in OrderRefs(s, h) ==> OrderRefs(AddOrder(s, id, body).store, h) == OrderRefs(s, h)
  {
    AddTargetsAre(body);
    AttachedTo(s, AddOrder(s, id, body).store, id, AddTargets(body), body);
  }

  /** The facts above, for any store that adds `id` to exactly the holders
      `targets` names. */
  lemma AttachedTo(s: Store, t: Store, id: Id, targets: seq<Holder>, body: OrderBody)
    requires body.customer.Some? && body.category.Some?
    requires forall h :: h in targets <==>
      h == OfCustomer(body.customer.value) || h == OfCategory(body.category.value) ||
      (body.business.Some? && h == OfBusiness(body.business.value))
    requires forall h :: OrderRefs(t, h) == if h in targets then OrderRefs(s, h) + {id} else OrderRefs(s, h)
    ensures id in OrderRefs(t, OfCustomer(body.customer.value))
    ensures id in OrderRefs(t, OfCategory(body.category.value))
    ensures forall b: Id :: id in OrderRefs(t, OfBusiness(b)) <==> body.business == Some(b) || id in OrderRefs(s, OfBusiness(b))
    ensures forall h :: id in OrderRefs(s, h) ==> OrderRefs(t, h) == OrderRefs(s, h)
  {
  }

  /** The holders `addOrder` attaches to, as a membership test. */
  lemma AddTargetsAre(body: OrderBody)
    requires body.customer.Some? && body.category.Some?
    ensures forall h :: h in AddTargets(body) <==>
      h == OfCustomer(body.customer.value) || h == OfCategory(body.category.value) ||
      (body.business.Some? && h == OfBusiness(body.business.value))
  {
  }

  /** Adding an order never breaks the rule that stored orders are listed
      by the holders they point at. */
  lemma AddOrderKeepsLinks(s: Store, id: Id, body: OrderBody)
    requires OrdersLinked(s)
    ensures OrdersLinked(AddOrder(s, id, body).store)
  {
    var r := AddOrder(s, id, body);
    var t := r.store;
    if r.status != NotFound {
      forall o, h | o in t.orders && h in HoldersOf(t.orders[o]) && Exists(t, h)
        ensures o in OrderRefs(t, h)
      {
        if o == id && r.status == Ok {
          assert h in AddTargets(body);
        } else {
          assert o in s.orders && t.orders[o] == s.orders[o];
          assert Exists(s, h);
        }
      }
    }
  }

  /** Every handler stores only documents the Order schema accepts. */
  lemma HandlersKeepOrdersValid(s: Store, id: Id, body: OrderBody, mode: SaveMode)
    requires OrdersValid(s)
    ensures OrdersValid(AddOrder(s, id, body).store)
    ensures OrdersValid(UpdateOrder(mode, s, id, body).store)
    ensures OrdersValid(DeleteOrderById(s, id).store)
    ensures OrdersValid(DeleteOrderByIdChecked(s, id).store)
  {
    var u := UpdateOrder(mode, s, id, body);
    if u.status == Ok {
      assert ValidOrder(s.orders[id]);
      forall o | o in u.store.orders ensures ValidOrder(u.store.orders[o]) {
        if o != id {
          assert o in u.store.orders - {id};
        }
      }
    }
    var a := AddOrder(s, id, body);
    if a.status == Ok {
      forall o | o in a.store.orders ensures ValidOrder(a.store.orders[o]) {
        if o != id {
          assert o in a.store.orders - {id};
        }
      }
    }
  }

  /** An order rewritten from `o` to `n` by an update body is listed by
      every holder `n` points at, given where the update put the id. */
  lemma RewrittenOrderLinked(s: Store, t: Store, id: Id, o: Order, n: Order, body: OrderBody)
    requires forall h :: h in HoldersOf(o) && Exists(s, h) ==> id in OrderRefs(s, h)
    requires forall h :: Exists(t, h) ==> Exists(s, h)
    requires n.customer == o.customer
    requires n.business == body.business
    requires n.category == body.category.GetOr(o.category)
    requires forall c: Id :: OrderRefs(t, OfCustomer(c)) == OrderRefs(s, OfCustomer(c))
    requires body.business.Some? ==> id in OrderRefs(t, OfBusiness(body.business.value))
    requires body.category.Some? ==> id in OrderRefs(t, OfCategory(body.category.value))
    requires body.category.None? ==> forall c: Id :: OrderRefs(t, OfCategory(c)) == OrderRefs(s, OfCategory(c))
    ensures forall h :: h in HoldersOf(n) && Exists(t, h) ==> id in OrderRefs(t, h)
  {
    forall h | h in HoldersOf(n) && Exists(t, h)
      ensures id in OrderRefs(t, h)
    {
      assert Exists(s, h);
      if h == OfCustomer(n.customer) || (h == OfCategory(n.category) && body.category.None?) {
        assert h in HoldersOf(o);
        assert OrderRefs(t, h) == OrderRefs(s, h);
      }
    }
  }

  /** With the intended saves, a successful update lists the updated
      order in every existing holder it now points at. */
  lemma UpdateOrderLinksItself(s: Store, id: Id, body: OrderBody)
    requires OrdersLinked(s)
    requires UpdateOrder(Intended, s, id, body).status == Ok
    ensures var t := UpdateOrder(Intended, s, id, body).store;
      forall h :: h in HoldersOf(t.orders[id]) && Exists(t, h) ==> id in OrderRefs(t, h)
  {
    UpdateOrderMovesOnlyItsId(Intended, s, id, body);
    UpdateOrderMovesBusiness(Intended, s, id, body);
    UpdateOrderMovesCategory(Intended, s, id, body);
    var t := UpdateOrder(Intended, s, id, body).store;
    RewrittenOrderLinked(s, t, id, s.orders[id], t.orders[id], body);
  }

  /** With the intended saves, a successful update leaves every stored
      order listed by the holders it points at. */
  lemma UpdateOrderKeepsLinks(s: Store, id: Id, body: OrderBody)
    requires OrdersLinked(s)
    requires UpdateOrder(Intended, s, id, body).status == Ok
    ensures OrdersLinked(UpdateOrder(Intended, s, id, body).store)
  {
    UpdateOrderMovesOnlyItsId(Intended, s, id, body);
    UpdateOrderLinksItself(s, id, body);
    OrdersLinkedAfterWrite(s, UpdateOrder(Intended, s, id, body).store, id);
  }

  /** A successful add with an unused id lists the new order only in the
      holders it points at, so every listed order still points back. */
  lemma AddOrderKeepsRefsBacked(s: Store, id: Id, body: OrderBody)
    requires RefsBacked(s)
    requires id !in s.orders
    requires AddOrder(s, id, body).status == Ok
    ensures RefsBacked(AddOrder(s, id, body).store)
  {
    var t := AddOrder(s, id, body).store;
    AddedOrderHolders(s, id, body);
    forall h, o | Exists(t, h) && o in OrderRefs(t, h)
      ensures o in t.orders && h in HoldersOf(t.orders[o])
    {
      if o != id {
        assert Exists(s, h) && o in OrderRefs(s, h);
        assert o in t.orders - {id};
      }
    }
  }

  /** With the intended saves, a successful update moves its id out of
      exactly the holders the order no longer points at, so every listed
      order still points back. */
  lemma UpdateOrderKeepsRefsBacked(s: Store, id: Id, body: OrderBody)
    requires RefsBacked(s)
    requires UpdateOrder(Intended, s, id, body).status == Ok
    ensures RefsBacked(UpdateOrder(Intended, s, id, body).store)
  {
    UpdateOrderMovesOnlyItsId(Intended, s, id, body);
    UpdateOrderMovesBusiness(Intended, s, id, body);
    UpdateOrderMovesCategory(Intended, s, id, body);
    var t := UpdateOrder(Intended, s, id, body).store;
    forall h, o | Exists(t, h) && o in OrderRefs(t, h)
      ensures o in t.orders && h in HoldersOf(t.orders[o])
    {
      assert Exists(s, h);
      if o != id {
        assert o in OrderRefs(s, h) - {id};
        assert o in t.orders - {id};
      } else {
        UpdatedHolder(s, t, id, h, body);
      }
    }
  }

  /** A holder listing the updated id after the update is one of the
      updated order's holders. */
  lemma UpdatedHolder(s: Store, t: Store, id: Id, h: Holder, body: OrderBody)
    requires RefsBacked(s)
    requires id in s.orders && id in t.orders && Exists(s, h)
    requires id in OrderRefs(t, h)
    requires t.orders[id].customer == s.orders[id].customer
    requires t.orders[id].business == body.business
    requires t.orders[id].category == body.category.GetOr(s.orders[id].category)
    requires forall c: Id :: OrderRefs(t, OfCustomer(c)) == OrderRefs(s, OfCustomer(c))
    requires s.orders[id].business.Some? && body.business != s.orders[id].business ==>
      id !in OrderRefs(t, OfBusiness(s.orders[id].business.value))
    requires forall b: Id :: s.orders[id].business != Some(b) && body.business != Some(b) ==>
      OrderRefs(t, OfBusiness(b)) == OrderRefs(s, OfBusiness(b))
    requires body.category.Some? && body.category.value != s.orders[id].category ==>
      id !in OrderRefs(t, OfCategory(s.orders[id].category))
    requires forall c: Id :: c != s.orders[id].category && body.category != Some(c) ==>
      OrderRefs(t, OfCategory(c)) == OrderRefs(s, OfCategory(c))
    requires body.category.None? ==> forall c: Id :: OrderRefs(t, OfCategory(c)) == OrderRefs(s, OfCategory(c))
    ensures h in HoldersOf(t.orders[id])
  {
    var o := s.orders[id];
    match h
    case OfCustomer(c) =>
      assert id in OrderRefs(s, h);
    case OfBusiness(b) =>
      if body.business != Some(b) {
        if o.business != Some(b) {
          assert id in OrderRefs(s, h);
          assert h in HoldersOf(o);
        }
      }
    case OfCategory(c) =>
      if body.category.None? {
        assert id in OrderRefs(s, h);
      } else if body.category != Some(c) {
        if c != o.category {
          assert id in OrderRefs(s, h);
          assert h in HoldersOf(o);
        }
      }
  }

  /** Deleting with checked lookups pulls the id from every holder that
      lists it, so every listed order still points back. */
  lemma DeleteCheckedKeepsRefsBacked(s: Store, id: Id)
    requires RefsBacked(s)
    ensures RefsBacked(DeleteOrderByIdChecked(s, id).store)
  {
    var t := DeleteOrderByIdChecked(s, id).store;
    if id in s.orders {
      forall h, o | Exists(t, h) && o in OrderRefs(t, h)
        ensures o in t.orders && h in HoldersOf(t.orders[o])
      {
        assert Exists(s, h) && o in OrderRefs(s, h);
        assert o != id;
      }
    }
  }

  /** When the order moves to a holder it was not pulled from, the copy
      loaded first lists the id only if the stored set still does, so the
      two save modes write the same. */
  lemma MoveAgrees(s: Store, order: Id, previous: seq<Holder>, next: Holder)
    requires Exists(s, next)
    requires next !in previous
    ensures MoveOrderRef(AsSaved, s, order, previous, next) == MoveOrderRef(Intended, s, order, previous, next)
  {
    var s1 := DetachAll(s, previous, order);
    if order in OrderRefs(s, next) {
      assert OrderRefs(s1, next) == OrderRefs(s, next);
      assert Exists(s1, next) by {
        assert ProfileOf(s1, next) == ProfileOf(s, next);
      }
      assert AttachAll(s1, [next], order) == AttachAll(AddOrderRef(s1, next, order), [], order);
    }
  }

  /** As written, the business step agrees with the intended one unless
      the request re-sends the order's current business. */
  lemma BusinessStepAgrees(s: Store, id: Id, o: Order, body: OrderBody)
    requires body.business.None? || body.business.value in s.businesses
    requires body.business != o.business
    ensures BusinessStep(AsSaved, s, id, o, body) == BusinessStep(Intended, s, id, o, body)
  {
    if body.business.Some? {
      MoveAgrees(s, id, BusinessHolders(o.business), OfBusiness(body.business.value));
    }
  }

  /** As written, the category step agrees with the intended one unless
      the request re-sends the order's current category. */
  lemma CategoryStepAgrees(s: Store, id: Id, o: Order, body: OrderBody)
    requires body.category.None? || body.category.value in s.categories
    requires body.category != Some(o.category)
    ensures CategoryStep(AsSaved, s, id, o, body) == CategoryStep(Intended, s, id, o, body)
  {
    if body.category.Some? {
      MoveAgrees(s, id, [OfCategory(o.category)], OfCategory(body.category.value));
    }
  }

  /** The update as written does what the handler intends whenever it does
      not re-send the order's current business or category (sending no
      business at all re-sends nothing): the stale copy matters only for a
      holder the order is pulled from and added back to. */
  lemma AsSavedAgreesWhenMoved(s: Store, id: Id, body: OrderBody)
    requires id in s.orders
    requires body.business.Some? ==> body.business != s.orders[id].business
    requires body.category != Some(s.orders[id].category)
    ensures UpdateOrder(AsSaved, s, id, body) == UpdateOrder(Intended, s, id, body)
  {
    if PassesBusinessStep(s, id, body) {
      var o := s.orders[id];
      if body.business.Some? {
        BusinessStepAgrees(s, id, o, body);
      }
      var s1 := BusinessStep(Intended, s, id, o, body);
      if body.category.None? || body.category.value in s1.categories {
        CategoryStepAgrees(s1, id, o, body);
      }
    }
  }

  /** Hence the update as written keeps every stored order linked when it
      re-sends neither the current business nor the current category. */
  lemma AsSavedKeepsLinksWhenMoved(s: Store, id: Id, body: OrderBody)
    requires OrdersLinked(s)
    requires id in s.orders
    requires body.business.Some? ==> body.business != s.orders[id].business
    requires body.category != Some(s.orders[id].category)
    requires UpdateOrder(AsSaved, s, id, body).status == Ok
    ensures OrdersLinked(UpdateOrder(AsSaved, s, id, body).store)
  {
    AsSavedAgreesWhenMoved(s, id, body);
    UpdateOrderKeepsLinks(s, id, body);
  }

  /** ... and every listed order still points back at its holder. */
  lemma AsSavedKeepsRefsBackedWhenMoved(s: Store, id: Id, body: OrderBody)
    requires RefsBacked(s)
    requires id in s.orders
    requires body.business.Some? ==> body.business != s.orders[id].business
    requires body.category != Some(s.orders[id].category)
    requires UpdateOrder(AsSaved, s, id, body).status == Ok
    ensures RefsBacked(UpdateOrder(AsSaved, s, id, body).store)
  {
    AsSavedAgreesWhenMoved(s, id, body);
    UpdateOrderKeepsRefsBacked(s, id, body);
  }

  /** Deleting with checked lookups keeps every remaining order listed by
      the holders it points at, and the deleted id is gone from all of its
      own holders. */
  lemma DeleteCheckedKeepsLinks(s: Store, id: Id)
    requires OrdersLinked(s)
    ensures OrdersLinked(DeleteOrderByIdChecked(s, id).store)
  {
    var t := DeleteOrderByIdChecked(s, id).store;
    if id in s.orders {
      forall o, h | o in t.orders && h in HoldersOf(t.orders[o]) && Exists(t, h)
        ensures o in OrderRefs(t, h)
      {
        assert o in s.orders && o != id;
        assert Exists(s, h);
      }
    }
  }

  /** Adding a fresh id to the holders `added` and then pulling it from
      the holders `pulled`, a superset, gives back the original sets. */
  lemma AttachThenDetachCancels(s: Store, a: Store, t: Store, id: Id, added: seq<Holder>, pulled: set<Holder>)
    requires forall h :: id !in OrderRefs(s, h)
    requires forall h :: OrderRefs(a, h) == if h in added then OrderRefs(s, h) + {id} else OrderRefs(s, h)
    requires forall h :: OrderRefs(t, h) == if h in pulled then OrderRefs(a, h) - {id} else OrderRefs(a, h)
    requires forall h :: h in added ==> h in pulled
    ensures forall h :: OrderRefs(t, h) == OrderRefs(s, h)
  {
  }

  /** Adding an order and deleting it again, with checked lookups, restores
      every back-reference set when the id was unused. */
  lemma AddThenDeleteRestoresRefs(s: Store, id: Id, body: OrderBody)
    requires id !in s.orders
    requires forall h :: id !in OrderRefs(s, h)
    requires AddOrder(s, id, body).status == Ok
    ensures DeleteOrderByIdChecked(AddOrder(s, id, body).store, id).status == Ok
    ensures DeleteOrderByIdChecked(AddOrder(s, id, body).store, id).store.orders == s.orders
    ensures forall h :: OrderRefs(DeleteOrderByIdChecked(AddOrder(s, id, body).store, id).store, h) == OrderRefs(s, h)
  {
    AddedOrderHolders(s, id, body);
    DeleteUndoesAttach(s, AddOrder(s, id, body).store, id, AddTargets(body));
  }

  /** Deleting an order whose id was attached to exactly its holders, in a
      store where the id was unused, gives back the original sets and
      orders. */
  lemma DeleteUndoesAttach(s: Store, a: Store, id: Id, targets: seq<Holder>)
    requires id !in s.orders
    requires forall h :: id !in OrderRefs(s, h)
    requires id in a.orders && a.orders - {id} == s.orders - {id}
    requires forall h :: h in targets <==> h in HoldersOf(a.orders[id])
    requires forall h :: OrderRefs(a, h) == if h in targets then OrderRefs(s, h) + {id} else OrderRefs(s, h)
    ensures DeleteOrderByIdChecked(a, id).status == Ok
    ensures DeleteOrderByIdChecked(a, id).store.orders == s.orders
    ensures forall h :: OrderRefs(DeleteOrderByIdChecked(a, id).store, h) == OrderRefs(s, h)
  {
    var d := DeleteOrderByIdChecked(a, id);
    assert s.orders - {id} == s.orders;
    AttachThenDetachCancels(s, a, d.store, id, targets, HoldersOf(a.orders[id]));
  }

  /** The holders a successful add attaches the order to are the holders
      the stored order points at. */
  lemma AddedOrderHolders(s: Store, id: Id, body: OrderBody)
    requires AddOrder(s, id, body).status == Ok
    ensures var a := AddOrder(s, id, body).store;
      forall h :: h in AddTargets(body) <==> h in HoldersOf(a.orders[id])
  {
  }

  // ---------------------------------------------------------------------
  // Partial writes and defects of the handlers as written
  // ---------------------------------------------------------------------

  /** An update whose category lookup fails still keeps its business
      edits: the order is detached from its old business while the stored
      order goes on pointing at it. */
  lemma UpdatePartialWriteUnlinks(s: Store, id: Id, body: OrderBody, mode: SaveMode)
    requires PassesBusinessStep(s, id, body) && !PassesCategoryStep(s, id, body)
    requires s.orders[id].business.Some? && s.orders[id].business.value in s.businesses
    requires body.business != s.orders[id].business
    ensures var r := UpdateOrder(mode, s, id, body);
      && r.status == NotFound
      && r.store.orders[id] == s.orders[id]
      && !OrdersLinked(r.store)
  {
    var r := UpdateOrder(mode, s, id, body);
    var b := OfBusiness(s.orders[id].business.value);
    assert b in HoldersOf(r.store.orders[id]);
    assert Exists(r.store, b);
    assert id !in OrderRefs(r.store, b);
  }

  /** As written, deleting an order that has no business crashes after the
      order and its customer reference are gone, and its category keeps
      listing an order that no longer exists. */
  lemma DeleteWithoutBusinessCrashes(s: Store, id: Id)
    requires OrdersLinked(s)
    requires id in s.orders && s.orders[id].business.None?
    requires s.orders[id].category in s.categories
    ensures var r := DeleteOrderById(s, id);
      && r.status == Crashed
      && id !in r.store.orders
      && id in OrderRefs(r.store, OfCategory(s.orders[id].category))
      && !RefsBacked(r.store)
  {
    var r := DeleteOrderById(s, id);
    var c := OfCategory(s.orders[id].category);
    assert c in HoldersOf(s.orders[id]) && Exists(s, c);
    assert c !in HoldersOf(s.orders[id]) - {c};
    assert OrderRefs(r.store, c) == OrderRefs(s, c);
  }

  /** Such an order is what a successful add without a business creates. */
  lemma AddWithoutBusinessThenDeleteCrashes(s: Store, id: Id, body: OrderBody)
    requires OrdersLinked(s)
    requires body.business.None?
    requires AddOrder(s, id, body).status == Ok
    ensures DeleteOrderById(AddOrder(s, id, body).store, id).status == Crashed
    ensures DeleteOrderByIdChecked(AddOrder(s, id, body).store, id).status == Ok
  {
    AddOrderKeepsLinks(s, id, body);
    var t := AddOrder(s, id, body).store;
    DeleteWithoutBusinessCrashes(t, id);
  }

  /** As written, updating an order with the business it already has
      removes the order from that business's `orders`: the pull is saved
      and the later `addToSet` on the copy loaded before it writes nothing.
      With the intended saves the order stays listed. */
  lemma SameBusinessUpdateDropsOrder(s: Store, id: Id, body: OrderBody)
    requires id in s.orders && s.orders[id].business.Some?
    requires body.customer.None? && body.category.None?
    requires body.business == s.orders[id].business && body.business.value in s.businesses
    requires id in OrderRefs(s, OfBusiness(body.business.value))
    requires PatchOrder(s.orders[id], body).Some?
    ensures var r := UpdateOrder(AsSaved, s, id, body);
      && r.status == Ok
      && r.store.orders[id].business == body.business
      && id !in OrderRefs(r.store, OfBusiness(body.business.value))
      && !OrdersLinked(r.store)
    ensures id in OrderRefs(UpdateOrder(Intended, s, id, body).store, OfBusiness(body.business.value))
  {
    var r := UpdateOrder(AsSaved, s, id, body);
    var b := OfBusiness(body.business.value);
    assert b in HoldersOf(r.store.orders[id]) && Exists(r.store, b);
  }
}

=== FILE: search.dfy ===
/** `searchByFilters`: validation of the paging and sorting parameters, the
    choice between an unfiltered and a filtered query, the sort, and the
    1-based page slice. The database's regular-expression match is the
    uninterpreted `matches(field, value, document)` and the sort key is the
    uninterpreted integer `rank(sortType, document)`. */
module Search {
  import opened Basics

  const PageSizeInvalid := "Page Size is invalid"
  const PageRequestedInvalid := "Page Requested is invalid"
  const SortValueInvalid := "Sort Value is invalid"

  /** The six arguments of `searchByFilters`, defaults already applied. */
  datatype Query = Query(
    searchField: string,
    searchValue: Option<string>,
    pageRequested: Num,
    pageSize: Num,
    sortType: string,
    sortValue: Num)

  /** `searchByFilters` answers either with an error string or with the
      documents of one page. */
  datatype SearchResult<T> = Invalid(message: string) | Docs(docs: seq<T>) {

    /** The JavaScript `length` of the answer: of the string or the array. */
    function Length(): nat {
      match this
      case Invalid(m) => |m|
      case Docs(d) => |d|
    }
  }

  function Min(a: int, b: int): int {
    if a <= b then a else b
  }

  /** `isNaN(x) || parseInt(x) <= 0` is false. */
  predicate Positive(x: Num) {
    x.Num? && x.n > 0
  }

  /** `parseInt(x)` is 1 or -1. */
  predicate IsDirection(x: Num) {
    x.Num? && (x.n == 1 || x.n == -1)
  }

  predicate ValidQuery(q: Query) {
    Positive(q.pageSize) && Positive(q.pageRequested) && IsDirection(q.sortValue)
  }

  /** An empty search field, or the configured default one, means "no
      filter". */
  predicate Unfiltered(field: string, noFilterField: string) {
    field == "" || field == noFilterField
  }

  // ---------------------------------------------------------------------
  // Filtering
  // ---------------------------------------------------------------------

  /** The documents of `xs` that satisfy `p`, in their original order. */
  function Filter<T>(xs: seq<T>, p: T -> bool): (r: seq<T>)
    ensures |r| <= |xs|
    ensures forall i :: 0 <= i < |r| ==> p(r[i])
    ensures multiset(r) <= multiset(xs)
  {
    if |xs| == 0 then []
    else
      var rest := Filter(xs[1..], p);
      assert xs == [xs[0]] + xs[1..];
      if p(xs[0]) then [xs[0]] + rest else rest
  }

  /** Filtering drops no document that satisfies `p`. */
  lemma {:induction false} FilterKeepsMatches<T>(xs: seq<T>, p: T -> bool)
    ensures forall i :: 0 <= i < |xs| && p(xs[i]) ==> xs[i] in Filter(xs, p)
  {
    if |xs| > 0 {
      FilterKeepsMatches(xs[1..], p);
      forall i | 1 <= i < |xs| && p(xs[i])
        ensures xs[i] in Filter(xs, p)
      {
        assert xs[i] == xs[1..][i - 1];
      }
    }
  }

  /** The filter `{[field]: new RegExp(value, 'i')}` as a test on one
      document. */
  function Matching<T>(matches: (string, Option<string>, T) -> bool, field: string, value: Option<string>): T -> bool {
    d => matches(field, value, d)
  }

  /** The number of documents of `xs` that satisfy `p`. */
  function Count<T>(xs: seq<T>, p: T -> bool): nat {
    if |xs| == 0 then 0
    else Count(xs[..|xs| - 1], p) + (if p(xs[|xs| - 1]) then 1 else 0)
  }

  /** Counting from the front gives the same number as counting from the
      back. */
  lemma {:induction false} CountFront<T>(xs: seq<T>, p: T -> bool)
    requires |xs| > 0
    ensures Count(xs, p) == (if p(xs[0]) then 1 else 0) + Count(xs[1..], p)
    decreases |xs|
  {
    if |xs| > 1 {
      CountFront(xs[..|xs| - 1], p);
      assert xs[..|xs| - 1][1..] == xs[1..][..|xs[1..]| - 1];
      assert xs[..|xs| - 1][0] == xs[0];
      assert xs[1..][|xs[1..]| - 1] == xs[|xs| - 1];
    } else {
      assert xs[1..] == [];
      assert xs[..|xs| - 1] == [];
    }
  }

  /** The filter keeps exactly as many documents as satisfy `p`. */
  lemma {:induction false} FilterCount<T>(xs: seq<T>, p: T -> bool)
    ensures |Filter(xs, p)| == Count(xs, p)
  {
    if |xs| > 0 {
      FilterCount(xs[1..], p);
      CountFront(xs, p);
    }
  }

  /** The documents the query selects before sorting and paging: the whole
      collection when unfiltered, the matching documents otherwise. */
  function Select<T>(coll: seq<T>, field: string, value: Option<string>, noFilterField: string,
                     matches: (string, Option<string>, T) -> bool): (r: seq<T>)
    ensures Unfiltered(field, noFilterField) ==> r == coll
    ensures !Unfiltered(field, noFilterField) ==>
      && (forall i :: 0 <= i < |r| ==> r[i] in coll && matches(field, value, r[i]))
      && (forall i :: 0 <= i < |coll| && matches(field, value, coll[i]) ==> coll[i] in r)
    ensures multiset(r) <= multiset(coll)
    ensures |r| <= |coll|
  {
    if Unfiltered(field, noFilterField) then coll
    else
      var p := Matching(matches, field, value);
      var r := Filter(coll, p);
      FilterKeepsMatches(coll, p);
      assert forall i :: 0 <= i < |r| ==> r[i] in coll by {
        forall i | 0 <= i < |r| ensures r[i] in coll {
          assert r[i] in multiset(r);
        }
      }
      r
  }

  // ---------------------------------------------------------------------
  // Sorting
  // ---------------------------------------------------------------------

  /** `a` may precede `b` in the requested direction. */
  predicate InOrder(a: int, b: int, ascending: bool) {
    if ascending then a <= b else a >= b
  }

  ghost predicate SortedBy<T>(xs: seq<T>, key: T -> int, ascending: bool) {
    forall i, j :: 0 <= i < j < |xs| ==> InOrder(key(xs[i]), key(xs[j]), ascending)
  }

  function Insert<T>(x: T, xs: seq<T>, key: T -> int, ascending: bool): (r: seq<T>)
    requires SortedBy(xs, key, ascending)
    ensures SortedBy(r, key, ascending)
    ensures multiset(r) == multiset(xs) + multiset{x}
  {
    if |xs| == 0 then [x]
    else if InOrder(key(x), key(xs[0]), ascending) then [x] + xs
    else
      var rest := Insert(x, xs[1..], key, ascending);
      assert xs == [xs[0]] + xs[1..];
      ConsSorted(xs[0], x, xs[1..], rest, key, ascending);
      [xs[0]] + rest
  }

  /** The head of a sorted sequence may precede anything inserted behind it
      that it may precede. */
  lemma ConsSorted<T>(h: T, x: T, t: seq<T>, rest: seq<T>, key: T -> int, ascending: bool)
    requires SortedBy([h] + t, key, ascending)
    requires SortedBy(rest, key, ascending)
    requires !InOrder(key(x), key(h), ascending)
    requires multiset(rest) == multiset(t) + multiset{x}
    ensures SortedBy([h] + rest, key, ascending)
  {
    var r := [h] + rest;
    forall j | 0 < j < |r|
      ensures InOrder(key(h), key(r[j]), ascending)
    {
      var y := r[j];
      assert y == rest[j - 1];
      assert y in multiset(rest);
      if y != x {
        assert y in multiset(t);
        var k :| 0 <= k < |t| && t[k] == y;
        var ht := [h] + t;
        assert ht[0] == h && ht[k + 1] == y;
        assert InOrder(key(ht[0]), key(ht[k + 1]), ascending);
      }
    }
  }

  /** The documents of `xs` reordered by `key` in the requested direction. */
  function Sort<T>(xs: seq<T>, key: T -> int, ascending: bool): (r: seq<T>)
    ensures SortedBy(r, key, ascending)
    ensures multiset(r) == multiset(xs)
    ensures |r| == |xs|
  {
    if |xs| == 0 then []
    else
      assert xs == [xs[0]] + xs[1..];
      Insert(xs[0], Sort(xs[1..], key, ascending), key, ascending)
  }

  // ---------------------------------------------------------------------
  // Paging
  // ---------------------------------------------------------------------

  /** `skip((page - 1) * size).limit(size)` on an already sorted sequence. */
  function Page<T>(xs: seq<T>, page: int, size: int): (r: seq<T>)
    requires page >= 1 && size >= 1
    ensures |r| <= size
    ensures |r| <= |xs|
    ensures forall i :: 0 <= i < |r| ==> r[i] in xs
  {
    var from := (page - 1) * size;
    if from >= |xs| then [] else xs[from .. Min(from + size, |xs|)]
  }

  /** A page is empty exactly when it starts past the end. */
  lemma PageEmpty<T>(xs: seq<T>, page: int, size: int)
    requires page >= 1 && size >= 1
    ensures Page(xs, page, size) == [] <==> (page - 1) * size >= |xs|
  {
    var from := (page - 1) * size;
    if from < |xs| {
      NextOffset(page, size);
      assert |Page(xs, page, size)| == Min(from + size, |xs|) - from > 0;
    }
  }

  /** Pages 1..k laid end to end. */
  function Pages<T>(xs: seq<T>, size: int, k: nat): seq<T>
    requires size >= 1
  {
    if k == 0 then [] else Pages(xs, size, k - 1) + Page(xs, k, size)
  }

  /** Concatenating the first k pages gives back the first k * size
      documents: no document is skipped or repeated between pages. */
  lemma {:induction false} PagesArePrefix<T>(xs: seq<T>, size: int, k: nat)
    requires size >= 1
    ensures Pages(xs, size, k) == xs[..Min(k * size, |xs|)]
  {
    if k > 0 {
      PagesArePrefix(xs, size, k - 1);
      var lo := (k - 1) * size;
      var hi := k * size;
      NextOffset(k, size);
      if lo >= |xs| {
        assert Min(hi, |xs|) == |xs| && Min(lo, |xs|) == |xs|;
        assert Page(xs, k, size) == [];
      } else {
        assert Page(xs, k, size) == xs[lo .. Min(hi, |xs|)];
        PrefixSplit(xs, lo, Min(hi, |xs|));
      }
    }
  }

  /** A prefix is a shorter prefix followed by the slice between them. */
  lemma PrefixSplit<T>(xs: seq<T>, lo: int, hi: int)
    requires 0 <= lo <= hi <= |xs|
    ensures xs[..hi] == xs[..lo] + xs[lo..hi]
  {
    assert xs[..hi] == xs[..hi][..lo] + xs[..hi][lo..];
  }

  /** Page k starts where the first k - 1 pages end. */
  lemma NextOffset(k: int, size: int)
    requires k >= 1 && size >= 1
    ensures k * size == (k - 1) * size + size
    ensures (k - 1) * size >= 0
  {
  }

  /** Enough pages to cover every document reproduce the whole sequence. */
  lemma PagesCoverAll<T>(xs: seq<T>, size: int, k: nat)
    requires size >= 1
    requires k * size >= |xs|
    ensures Pages(xs, size, k) == xs
  {
    PagesArePrefix(xs, size, k);
    assert xs[..|xs|] == xs;
  }

  // ---------------------------------------------------------------------
  // searchByFilters
  // ---------------------------------------------------------------------

  /** The sort key named by `sortType`. */
  function KeyOf<T>(rank: (string, T) -> int, sortType: string): T -> int {
    d => rank(sortType, d)
  }

  /** Every matching document, in the requested order, before paging. */
  function Ranked<T>(coll: seq<T>, noFilterField: string, q: Query,
                     matches: (string, Option<string>, T) -> bool,
                     rank: (string, T) -> int): seq<T>
    requires IsDirection(q.sortValue)
  {
    Sort(Select(coll, q.searchField, q.searchValue, noFilterField, matches),
         KeyOf(rank, q.sortType), q.sortValue.n == 1)
  }

  /** Sorting keeps every selected document, so the sorted matches are as
      many as the selected ones. */
  lemma RankedLength<T>(coll: seq<T>, noFilterField: string, q: Query,
                        matches: (string, Option<string>, T) -> bool,
                        rank: (string, T) -> int)
    requires IsDirection(q.sortValue)
    ensures |Ranked(coll, noFilterField, q, matches, rank)| == |Select(coll, q.searchField, q.searchValue, noFilterField, matches)|
  {
    var selected := Select(coll, q.searchField, q.searchValue, noFilterField, matches);
    var all := Ranked(coll, noFilterField, q, matches, rank);
    assert |all| == |multiset(all)| == |multiset(selected)| == |selected|;
  }

  function SearchByFilters<T>(coll: seq<T>, noFilterField: string, q: Query,
                              matches: (string, Option<string>, T) -> bool,
                              rank: (string, T) -> int): (r: SearchResult<T>)
    ensures !Positive(q.pageSize) ==> r == Invalid(PageSizeInvalid)
    ensures Positive(q.pageSize) && !Positive(q.pageRequested) ==> r == Invalid(PageRequestedInvalid)
    ensures Positive(q.pageSize) && Positive(q.pageRequested) && !IsDirection(q.sortValue) ==>
      r == Invalid(SortValueInvalid)
    ensures r.Docs? <==> ValidQuery(q)
    ensures r.Docs? ==> |r.docs| <= q.pageSize.n
    ensures r.Docs? ==> |r.docs| <= |Select(coll, q.searchField, q.searchValue, noFilterField, matches)|
    ensures r.Docs? ==> forall i :: 0 <= i < |r.docs| ==>
      && r.docs[i] in coll
      && (!Unfiltered(q.searchField, noFilterField) ==> matches(q.searchField, q.searchValue, r.docs[i]))
    ensures r.Docs? ==> SortedBy(r.docs, KeyOf(rank, q.sortType), q.sortValue.n == 1)
  {
    if !Positive(q.pageSize) then Invalid(PageSizeInvalid)
    else if !Positive(q.pageRequested) then Invalid(PageRequestedInvalid)
    else if !IsDirection(q.sortValue) then Invalid(SortValueInvalid)
    else
      var all := Ranked(coll, noFilterField, q, matches, rank);
      var page := Page(all, q.pageRequested.n, q.pageSize.n);
      var selected := Select(coll, q.searchField, q.searchValue, noFilterField, matches);
      forall i | 0 <= i < |page|
        ensures page[i] in selected
      {
        assert page[i] in multiset(all);
      }
      PageIsSorted(all, q.pageRequested.n, q.pageSize.n, KeyOf(rank, q.sortType), q.sortValue.n == 1);
      Docs(page)
  }

  lemma PageIsSorted<T>(xs: seq<T>, page: int, size: int, key: T -> int, ascending: bool)
    requires page >= 1 && size >= 1
    requires SortedBy(xs, key, ascending)
    ensures SortedBy(Page(xs, page, size), key, ascending)
  {
    var from := (page - 1) * size;
    if from < |xs| {
      SliceSorted(xs, from, Min(from + size, |xs|), key, ascending);
    }
  }

  /** Any slice of a sorted sequence is sorted. */
  lemma SliceSorted<T>(xs: seq<T>, lo: int, hi: int, key: T -> int, ascending: bool)
    requires 0 <= lo <= hi <= |xs|
    requires SortedBy(xs, key, ascending)
    ensures SortedBy(xs[lo..hi], key, ascending)
  {
    var r := xs[lo..hi];
    forall i, j | 0 <= i < j < |r|
      ensures InOrder(key(r[i]), key(r[j]), ascending)
    {
      assert r[i] == xs[lo + i] && r[j] == xs[lo + j];
    }
  }

  /** The documents of pages 1..k of one query, laid end to end. */
  function SearchPages<T>(coll: seq<T>, noFilterField: string, q: Query,
                          matches: (string, Option<string>, T) -> bool,
                          rank: (string, T) -> int, k: nat): seq<T>
    requires ValidQuery(q)
  {
    if k == 0 then []
    else
      var r := SearchByFilters(coll, noFilterField, q.(pageRequested := Num(k)), matches, rank);
      SearchPages(coll, noFilterField, q, matches, rank, k - 1) + r.docs
  }

  /** Asking for pages 1..k in turn returns the first k * pageSize matching
      documents in order, each exactly once. */
  lemma {:induction false} SearchPagesArePrefix<T>(coll: seq<T>, noFilterField: string, q: Query,
                                                   matches: (string, Option<string>, T) -> bool,
                                                   rank: (string, T) -> int, k: nat)
    requires ValidQuery(q)
    ensures SearchPages(coll, noFilterField, q, matches, rank, k)
         == Pages(Ranked(coll, noFilterField, q, matches, rank), q.pageSize.n, k)
  {
    if k > 0 {
      var all := Ranked(coll, noFilterField, q, matches, rank);
      var r := SearchByFilters(coll, noFilterField, q.(pageRequested := Num(k)), matches, rank);
      SearchPagesArePrefix(coll, noFilterField, q, matches, rank, k - 1);
      RequestedPage(coll, noFilterField, q, matches, rank, k);
      calc {
        SearchPages(coll, noFilterField, q, matches, rank, k);
        SearchPages(coll, noFilterField, q, matches, rank, k - 1) + r.docs;
        Pages(all, q.pageSize.n, k - 1) + Page(all, k, q.pageSize.n);
        Pages(all, q.pageSize.n, k);
      }
    }
  }

  /** Asking for page k returns page k of the sorted matches; the page
      number plays no part in selecting or sorting. */
  lemma RequestedPage<T>(coll: seq<T>, noFilterField: string, q: Query,
                         matches: (string, Option<string>, T) -> bool,
                         rank: (string, T) -> int, k: nat)
    requires ValidQuery(q) && k >= 1
    ensures SearchByFilters(coll, noFilterField, q.(pageRequested := Num(k)), matches, rank)
         == Docs(Page(Ranked(coll, noFilterField, q, matches, rank), k, q.pageSize.n))
  {
    var q' := q.(pageRequested := Num(k));
    assert Ranked(coll, noFilterField, q', matches, rank) == Ranked(coll, noFilterField, q, matches, rank);
  }

  /** Once the pages cover every match, their concatenation is the whole
      match set (as a multiset: nothing lost, nothing repeated) in the
      requested order. */
  lemma SearchPagesCoverMatches<T>(coll: seq<T>, noFilterField: string, q: Query,
                                   matches: (string, Option<string>, T) -> bool,
                                   rank: (string, T) -> int, k: nat)
    requires ValidQuery(q)
    requires k * q.pageSize.n >= |Select(coll, q.searchField, q.searchValue, noFilterField, matches)|
    ensures var all := SearchPages(coll, noFilterField, q, matches, rank, k);
      && multiset(all) == multiset(Select(coll, q.searchField, q.searchValue, noFilterField, matches))
      && SortedBy(all, KeyOf(rank, q.sortType), q.sortValue.n == 1)
  {
    SearchPagesArePrefix(coll, noFilterField, q, matches, rank, k);
    PagesCoverAll(Ranked(coll, noFilterField, q, matches, rank), q.pageSize.n, k);
  }
}
